=== FILE: README.md ===
# beautyrest, modelled in Dafny

beautyrest is a small Go library that turns plain Go functions into REST
endpoints. A route is registered with up to four handlers (GET, POST, PUT,
DELETE). For every request the wrapper:

- picks the handler for the HTTP verb;
- builds its arguments from the request, one per declared parameter;
- calls the handler and reads its results;
- writes either the JSON payload or an error status.

A deferred recovery turns any panic into a 500 response whose body maps
"error" to "Server Panic" and decimal indices to the comma-separated pieces
of the stack trace. The library also writes Markdown request documentation
from the handlers' parameter and result types.

This project models both pieces as pure functions over immutable datatypes:

| file | module | models |
|---|---|---|
| wrappers.dfy | `Wrappers` | `Option`, `Result`, and `Step` (a value, an error, or a panic) |
| strconv.dfy | `StrConv` | Go's `strconv.Atoi` and `strconv.Itoa` for 64-bit `int` |
| strs.dfy | `Strs` | `strings.Split`, `Join`, `Count`, `HasPrefix`, `Replace` for one character |
| binding.dfy | `Binding` | `getValidatedInputParams`: resolution order, body restore, flattening with integer coercion, JSON overlay, validation |
| dispatch.dfy | `Dispatch` | `WrapEndpointHandlers` (verb switch, outcome mapping, panic map) and `callHandler` |
| beautyprint.dfy | `BeautyPrint` | `printStructFieldInfo`, `printInputParams`, `printOutputParams`, `printRouteHandlers`, `AddRoutesHeader` |

Go reflection is replaced by explicit descriptors:

- A handler is a list of `Param`s, each with a `Shape` (file, request value,
  request pointer, or struct schema) and a flag saying whether its type
  implements `MakeFromRequest`. Its behaviour is a function from the bound
  arguments to `Returns(results)` or `Panics`.
- Type descriptors for the documentation printer are a recursive `Type`
  datatype over Go's `reflect.Kind`.

Dispatch's `Handler` and the printer's `DocHandler` are two views of the
same Go handler func. Binding needs each parameter's shape and the func's
behaviour. The printer needs field tags, kinds and type names for both
parameters and results. In Go both views come from `reflect.TypeOf(handler)`,
so the model keeps them as separate inputs.

The model does not contain the code beautyrest calls into. Each of the
following is supplied in a `Foreign` record as an answer, possibly a panic:

- capability construction (`MakeFromRequest`);
- `FormFile`;
- `ParseForm`;
- the JSON decoder's view of the body;
- encoding/json's type-mismatch message;
- the validator.

Likewise, `debug.Stack()` becomes a `stack` string parameter.

The request body is modelled as a stream. Reading it all up front leaves it
empty. Before each parameter, the original bytes are put back, but only when
there are any. Any resolution that may read the body leaves it empty.
The contract of `Binding.Bind` states that the loop therefore agrees with
resolving every parameter against the full body.

Two behaviours of the code are kept as they are:

- A nested struct's required text is appended with no separator in front.
  `BeautyPrint.RequiredPieces` describes this joining for every struct, and
  `BeautyPrint.NestedBodyUnseparated` shows it on a two-field example.
- A one-slot handler reads its single result both as payload and as error
  (`Dispatch.SingleSlotError`).

## Model

| member | source | states |
|---|---|---|
| StrConv.Itoa | beautyrest.go:60-62 | the decimal text is non-empty, and it consists of digits only exactly when the value is non-negative |
| StrConv.Atoi | beautyrest.go:206-210 | an accepted text has an optional sign then one or more digits, and its value lies in the 64-bit range; a negative value needs a leading "-" |
| StrConv.AtoiNeedsDigits | beautyrest.go:206-210 | the empty text and a lone "+" or "-" are not integers |
| StrConv.AtoiSigned | beautyrest.go:206-210 | an optional "+" or "-" followed by one or more digits is accepted exactly when its signed value lies in the 64-bit range, and then with that value |
| StrConv.AtoiItoa | beautyrest.go:206-210 | every 64-bit value written by Itoa is read back by Atoi as the same value |
| StrConv.AtoiShortDigits | beautyrest.go:206-210 | any run of 1 to 18 digits is accepted, leading zeros included, with its decimal value |
| StrConv.ItoaInjective | beautyrest.go:60-62 | distinct stack-segment indices get distinct keys |
| Strs.ReplaceAll | beautyprint.go:66 | same length as the input, with each "from" character replaced and every other character kept |
| Strs.SplitCount | beautyrest.go:59 | splitting at a character gives one more piece than the character's occurrences |
| Strs.SplitPiecesFree | beautyrest.go:59 | no piece contains the separator |
| Strs.SplitJoin | beautyrest.go:59 | joining the pieces with the separator gives back the input |
| Binding.Coerce | beautyrest.go:204-211 | a value becomes an integer exactly when Atoi accepts it, with Atoi's value; otherwise it stays the same string |
| Binding.CoerceDecimal | beautyrest.go:206-210 | the decimal text of any 64-bit integer is coerced back to that integer |
| Binding.Flatten | beautyrest.go:201-212 | the flattened map has exactly the keys with one value, each coerced; it equals the reference map comprehension |
| Binding.Overlay | beautyrest.go:213-217 | decoding fails exactly when a member does not fit its field, with the decoder's message. Otherwise every non-null member sets its field; null clears a pointer or interface field and leaves any other field as it was; untouched fields keep their value; unknown keys are ignored |
| Binding.BodyFields | beautyrest.go:194-225 | ContentLength at most 0 leaves the struct empty. A multipart body takes `ParseForm`'s error or panic as its own, is skipped when the form is empty, and otherwise sets exactly the schema's fields among the form's single-valued keys to their coerced values, or fails with the mismatch message. Any other body takes the decoder's error or panic as its own, and otherwise sets exactly the known members that are not a no-op null, or fails with the mismatch message. Only schema fields are ever set |
| Binding.FormValueDecoded | beautyrest.go:201-217 | a single-valued form key that names a field ends in the struct with its coerced value |
| Binding.MergedFields | beautyrest.go:227-246 | a failed or panicking body step is passed on; after it, the query overlay fails exactly when a query value does not fit its field, with the mismatch message. A merged struct satisfies the reference merge: schema fields only, the query's coerced value for every single-valued query key, the body's value (or absence) for every other field |
| Binding.MergeOfUnique | beautyrest.go:227-246 | the reference merge determines the struct: two structs that both satisfy it are equal |
| Binding.DecodeStruct | beautyrest.go:191-253 | the struct is bound exactly when body decode and query overlay succeed and the validator accepts the merged value; a bound struct passed validation |
| Binding.ValidatorSeesMerged | beautyrest.go:227-253 | when the body step succeeds and the query fits, the parameter's outcome is the validator's answer on the reference merge of body and query: bound to that struct when it accepts, its error or panic otherwise |
| Binding.Resolve | beautyrest.go:139-253 | a capability type gets `MakeFromRequest`'s value or its error; a file parameter gets `FormFile`'s file, or its error after "Could not get file: "; a request parameter always gets a copy of the request with the body as it stands; a struct parameter's outcome is exactly the body decode, query overlay and validation of `DecodeStruct`; the body is used up exactly by a capability, a file, or a struct decode with a positive ContentLength (unless already empty) |
| Binding.CapabilityAlone | beautyrest.go:148-155 | a capability parameter's outcome depends only on `MakeFromRequest`'s answer, not on its shape, the rest of the request, decoding or validation |
| Binding.MissingFile | beautyrest.go:171-176 | a missing upload fails with "Could not get file: " and the cause |
| Binding.BindFrom | beautyrest.go:132-256 | a successful loop yields one value per parameter, each of the kind the parameter asks for; a failure needs at least one parameter |
| Binding.BindFromSeesFullBody | beautyrest.go:127-138 | from an empty or untouched stream, the binding loop equals binding each parameter against the full body |
| Binding.Bind | beautyrest.go:115-259 | binding equals resolving every parameter against the full body, and a success has one value of the right kind per parameter |
| Binding.BindEachCharacterized | beautyrest.go:121-155 | binding succeeds exactly when every parameter does, with one value per parameter in order. Otherwise it reports the first parameter that failed or panicked |
| Binding.QueryOverridesBody | beautyrest.go:227-246 | a key present in the single-valued query ends with the query's coerced value |
| Binding.BodyValueKept | beautyrest.go:227-246 | a field the query does not set keeps the value the body gave it |
| Binding.NumericTextRejectedByStringField | beautyrest.go:229-245 | a string field set from the query with text Atoi accepts makes decoding fail with the mismatch error |
| Binding.QueryCannotSetBoolOrFraction | beautyrest.go:229-245 | the query cannot set a bool field at all, nor a float field to text Atoi rejects such as "1.5": decoding fails with the mismatch error |
| Dispatch.SelectHandler | beautyrest.go:72-91 | OPTIONS exactly gives the preflight answer; a handler is selected exactly for a registered GET, POST, PUT or DELETE, and it is that verb's handler |
| Dispatch.FreshIndexKey | beautyrest.go:56-62 | the next index key never clashes with "error" or an earlier index |
| Dispatch.PanicEntries | beautyrest.go:56-62 | the panic map has one entry per segment plus "error" = "Server Panic", and the segment with index i sits under the decimal key of i |
| Dispatch.PanicBody | beautyrest.go:56-62 | the panic body has (number of commas + 2) entries: "error" = "Server Panic", and under each index key the comma-free segment with that index |
| Dispatch.PanicBodyShape | beautyrest.go:56-62 | the indexed entries of the panic body, joined with "," in index order, give the whole stack back |
| Dispatch.ReadResults | beautyrest.go:261-275 | no result slots make the read panic; otherwise the payload is the first slot, and the error is the last slot's error text exactly when that slot is an error value; a nil last slot means no error |
| Dispatch.Deliver | beautyrest.go:102-111 | an error gives 500 with its text and a newline. Without one the status is 200: a ResponseWriter payload is handed off, nil writes nothing, anything else is JSON-encoded with a newline |
| Dispatch.Serve | beautyrest.go:42-112 | OPTIONS gives 200 without binding; an unregistered verb gives 501 "unsupported rest verb". Binding runs exactly when a handler is selected. The status is 400 exactly when binding fails, with its text, and the handler does not run. A panic map always carries status 500 |
| Dispatch.BindingFailureIsClientError | beautyrest.go:95-99 | when parameter i fails and all earlier ones succeed, the response is 400 with parameter i's error and the handler never runs |
| Dispatch.DecodeFailureIsClientError | beautyrest.go:95-99 | a struct parameter whose decoding fails, after earlier parameters bound, gives 400 with the decoding's error and the handler never runs |
| Dispatch.QueryMismatchIsClientError | beautyrest.go:241-245 | a query value the struct cannot take, after a body that decoded, gives 400 with the decoder's mismatch message |
| Dispatch.ValidatorRejectionIsClientError | beautyrest.go:248-252 | when the validator rejects the merged struct (body fields with the query's single values on top), the response is 400 with the validator's error |
| Dispatch.HandlerGetsBoundArguments | beautyrest.go:121-124 | when every parameter resolves, the handler gets exactly one argument per parameter, in order |
| Dispatch.PanicContained | beautyrest.go:51-69 | the 500 panic map is written exactly when one of the panics the model represents happens: in `MakeFromRequest`, `FormFile`, `ParseForm`, the JSON decoder or the validator, in reflect.Call's argument check, in the handler, or in the result indexing |
| Dispatch.HandlerErrorIsServerError | beautyrest.go:102-106 | a handler error gives 500 with the error text, whatever the payload |
| Dispatch.HandlerReturned | beautyrest.go:100-111 | once the handler returns at least one result, the response is exactly what the reading of those results delivers |
| Dispatch.PayloadEncoding | beautyrest.go:107-111 | whenever the last slot holds no error (nil, or a value that is not an error), the status is 200 and a ResponseWriter payload is left alone, a nil payload writes nothing, and anything else is JSON-encoded |
| Dispatch.SingleSlotError | beautyrest.go:266-272 | a handler whose only result is an error value has it read as both payload and error, and answers 500 |
| BeautyPrint.Placeholder | beautyprint.go:237-259 | strings get "test\<Name\>" in quotes; the value is empty exactly for structs, 1 exactly for the kinds Int to Uint64, 1.0 exactly for the float kinds, [] exactly for slices, and "?" exactly for every other kind, a pointer to a pointer included |
| BeautyPrint.Add | beautyprint.go:243-269 | after the nested texts, a required field's entry goes to the required text only, after a ",\n" exactly when that text is non-empty; any other field's entry goes to the optional text only, with a newline; nothing written before is changed |
| BeautyPrint.Next | beautyprint.go:221-270 | one field only appends to the two texts |
| BeautyPrint.FieldInfoFrom | beautyprint.go:216-274 | the field walk only appends to the two texts |
| BeautyPrint.FieldInfo | beautyprint.go:216-274 | the optional text is the optional lines of the walk, nested first; the required text is the reference pieces glued together; it is empty exactly when nothing is required |
| BeautyPrint.OptionalsAreLines | beautyprint.go:243-269 | the optional text is the optional entries of the walk, nested ones first, each ending in a newline |
| BeautyPrint.NextOptionals | beautyprint.go:243-269 | one field adds its nested struct's optional lines, then its own line when it is not required |
| BeautyPrint.BodyEmptyIffNoRequired | beautyprint.go:262-266 | the required text is empty exactly when no field anywhere in the struct is required |
| BeautyPrint.NextBodyEmpty | beautyprint.go:262-266 | after one field, the required text is empty exactly when it was empty before and the field adds no required entry |
| BeautyPrint.GlueAppend | beautyprint.go:243-266 | gluing two runs of pieces one after the other is gluing their concatenation |
| BeautyPrint.BodyGlued | beautyprint.go:243-266 | for every struct, nested or not, the required text is the reference pieces glued onto the earlier text: a nested struct's own text appended bare, each required entry after a ",\n" unless the text so far is empty |
| BeautyPrint.NextBodyGlued | beautyprint.go:243-266 | one field adds its pieces to the required text: its nested struct's text bare, then its entry when required |
| BeautyPrint.JoinOntoStep | beautyprint.go:263-266 | adding one entry after a separator is the same as joining it into the ",\n"-joined list |
| BeautyPrint.FlatBodyJoined | beautyprint.go:262-266 | without nested structs, the required text is the earlier text with the required entries joined on by ",\n" |
| BeautyPrint.FlatStep | beautyprint.go:262-266 | a field without a nested struct adds its entry to the required text exactly when it is required, after a ",\n" when the text is non-empty |
| BeautyPrint.FlatStructBody | beautyprint.go:262-266 | without nested structs, the required text is the required entries joined by ",\n", with no separator before the first |
| BeautyPrint.IsDefaultIgnored | beautyprint.go:223-226 | dropping every "isdefault" field leaves both texts unchanged |
| BeautyPrint.NestedBodyUnseparated | beautyprint.go:243-266 | a nested struct's required entry follows the outer entry with no ",\n" between them |
| BeautyPrint.NestedFieldListed | beautyprint.go:243-248 | a nested struct field adds the nested texts and is then listed itself with an empty value |
| BeautyPrint.PointerFieldOptional | beautyprint.go:225-235 | a pointer field is never required: it goes to the optional text with the placeholder of its element kind |
| BeautyPrint.PrintInputParams | beautyprint.go:111-155 | the input section always starts with the headers block whose first line is the JSON Content-Type header (the whole text is stated by InputText) |
| BeautyPrint.InputHeadersStart | beautyprint.go:121-152 | the parameter loop only appends to the headers |
| BeautyPrint.InputStepParts | beautyprint.go:130-150 | one parameter adds its header line (optional auth, auth, file) or, for a struct, its required and optional texts |
| BeautyPrint.InputDecomposed | beautyprint.go:121-152 | every parameter adds, in order: its own header line (optional auth, auth, file); a struct's required text; a struct's optional text |
| BeautyPrint.InputText | beautyprint.go:109-167 | for any parameters, the input section is the headers block (the JSON Content-Type, then each parameter's header line in order), then the request object with every struct parameter's required text, then the "Optional params" comment and every optional text when there are any |
| BeautyPrint.OptionalBlockShown | beautyprint.go:160-163 | the "Optional params" block is written exactly when some struct parameter has an optional entry |
| BeautyPrint.InputWithoutOptionals | beautyprint.go:154-165 | with no optional entries the section has no "Optional params" block |
| BeautyPrint.ConcatEmpty | beautyprint.go:160-163 | a concatenation of pieces is empty exactly when every piece is |
| BeautyPrint.PrintOutputParams | beautyprint.go:204-212 | the response section is empty exactly when both texts are empty, and otherwise is the heading and a code block holding the required text, then the optional text, inside braces |
| BeautyPrint.OutputWithoutStructs | beautyprint.go:175-200 | with no struct result, each result adds its line in order: nothing for an interface, "map[K]kind" for a map, the type's name otherwise; the optional text is untouched |
| BeautyPrint.OutputAfterLastStruct | beautyprint.go:175-200 | the texts are the last struct result's texts, followed by the lines of the results after it |
| BeautyPrint.InterfaceResultsIgnored | beautyprint.go:191 | interface results such as `error` do not change the output |
| BeautyPrint.StructResultReplaces | beautyprint.go:187-189 | a struct result discards what earlier results wrote |
| BeautyPrint.StructAndErrorResults | beautyprint.go:175-212 | a `(T, error)` handler documents exactly T's fields, and nothing when T has none to show |
| BeautyPrint.Section | beautyprint.go:68-99 | a section opens with its title line (the route with "/" turned into spaces), then the request line with the verb and the full path in a code block, then the request headers block |
| BeautyPrint.SectionParts | beautyprint.go:68-107 | after its title and request lines a section is exactly the input section followed by the response section, so it ends with the response section |
| BeautyPrint.SectionOfStructAndError | beautyprint.go:68-107 | the section of a `(T, error)` handler ends with T's response object, or with its input section when T shows nothing |
| BeautyPrint.SectionIf | beautyprint.go:68-99 | a verb's text is empty exactly when no handler is registered for it, and otherwise opens with its title |
| BeautyPrint.SectionTitle | beautyprint.go:66 | the title route has no "/" left, the same length, and every other character kept |
| BeautyPrint.PrintRouteHandlers | beautyprint.go:64-101 | the route's text is empty exactly when no verb is registered, and otherwise opens with the title of the first registered verb in the order POST (create), GET (retrieve), PUT (update), DELETE (delete) |
| BeautyPrint.RouteSectionsInOrder | beautyprint.go:64-101 | the route's text is one section per registered verb, in the order POST, GET, PUT, DELETE |
| BeautyPrint.TableSections | beautyprint.go:64-101 | the four verb blocks are the verb table's entries in order, titled create, retrieve, update, delete |
| BeautyPrint.PresentCount | beautyprint.go:68-99 | one section is written per registered entry of a verb table, and none for the others |
| BeautyPrint.SectionCount | beautyprint.go:68-99 | there are exactly as many sections as registered verbs |
| BeautyPrint.PresentSections | beautyprint.go:68-99 | the sections of the registered verbs equal the table entries with absent verbs contributing nothing |
| BeautyPrint.CommentsJoined | beautyprint.go:280-283 | the comment lines are the comments joined by newlines, with a final newline when there are any |
| BeautyPrint.AddRoutesHeader | beautyprint.go:276-286 | the routes header is the title line naming the route, the opening fence, the comments joined by newlines with a final newline when there are any, then the closing fence |

## Left out

- Route registration (`HandleRoute`, `http.HandleFunc`), response headers and `logRequest`'s console output are network plumbing. The model returns the status and body as values.
- `getFile` is left out. It writes to the filesystem, uses time-based names, and is not on the dispatch path.
- `Write`, `InitBeautyPrinter` and the global printer are left out: they do file output and keep global state. The typescriptify calls are left out too. Each printer function returns the text the Go method appends to its builder.
- The contents of `debug.Stack()` are out of scope. The stack is an arbitrary string; only its split into the panic map is modelled.
- Concurrency between requests is not modelled: it belongs to the Go HTTP server.
- Binding.Resolve: the deferred `f.Close()` runs when binding returns, so the handler gets a closed file. The model hands the file value through without a notion of closing.
- Binding.BodyFields: the model does not capture that `ParseForm` on a multipart request sees the multipart fields only after an earlier `FormFile`. `ParseForm`'s answer is an input.
- Binding.BodyFields: a nil request body is treated like an empty one. A body holding a bare JSON `null` is not modelled: the decoder answer is an object or an error.
- Binding.Overlay: encoding/json matches keys to fields case-insensitively. The model matches them exactly, and nested JSON values are opaque (`VOther`).
- Binding.Overlay: fields of slice, map, array and nested-struct type are described only as `FAny`, which takes every value. The model does not reject, say, a string sent to a slice field.
- Binding.Overlay: a float field takes every integer. encoding/json rejects a number beyond float64's range, and the model does not.
- Dispatch.PanicContained: the recovery also catches panics the model does not represent, and the lemma does not cover them. These are a panic in a user `UnmarshalJSON` during the form or query overlay, in the `Error` method of a handler's error (http.Error, beautyrest.go:104), and in a payload's `MarshalJSON` while it is encoded. The model's overlay, error text and JSON text are plain values.
- Dispatch.Serve: a handler that is not a function is not modelled. Neither is a failure while encoding the payload, whose JSON text is an input.
- BeautyPrint.TypeString: the model writes names for unnamed slice, map and pointer types only. A named composite type's name is not modelled.
- The commented-out authentication code in beautyrest.go is dead and is not modelled.

=== FILE: beautyprint.dfy ===
/** The request-documentation builder of beautyprint.go: Markdown sections
    with placeholder JSON for a route's handlers, computed from type
    descriptors. Each printer function returns the text the Go method appends
    to the builder. */
module BeautyPrint {
  import opened Wrappers
  import opened Strs

  /** Go's reflect.Kind, in reflect's order. */
  datatype Kind =
    | Invalid | Bool | Int | Int8 | Int16 | Int32 | Int64
    | Uint | Uint8 | Uint16 | Uint32 | Uint64 | Uintptr
    | Float32 | Float64 | Complex64 | Complex128
    | Array | Chan | Func | Interface | Map | Ptr | Slice | String | Struct | UnsafePointer

  /** The numeric value of a reflect.Kind. */
  function Ordinal(k: Kind): nat {
    match k
    case Invalid => 0 case Bool => 1 case Int => 2 case Int8 => 3 case Int16 => 4
    case Int32 => 5 case Int64 => 6 case Uint => 7 case Uint8 => 8 case Uint16 => 9
    case Uint32 => 10 case Uint64 => 11 case Uintptr => 12 case Float32 => 13
    case Float64 => 14 case Complex64 => 15 case Complex128 => 16 case Array => 17
    case Chan => 18 case Func => 19 case Interface => 20 case Map => 21 case Ptr => 22
    case Slice => 23 case String => 24 case Struct => 25 case UnsafePointer => 26
  }

  /** reflect.Kind's String method. */
  function KindName(k: Kind): string {
    match k
    case Invalid => "invalid" case Bool => "bool" case Int => "int" case Int8 => "int8"
    case Int16 => "int16" case Int32 => "int32" case Int64 => "int64" case Uint => "uint"
    case Uint8 => "uint8" case Uint16 => "uint16" case Uint32 => "uint32" case Uint64 => "uint64"
    case Uintptr => "uintptr" case Float32 => "float32" case Float64 => "float64"
    case Complex64 => "complex64" case Complex128 => "complex128" case Array => "array"
    case Chan => "chan" case Func => "func" case Interface => "interface" case Map => "map"
    case Ptr => "ptr" case Slice => "slice" case String => "string" case Struct => "struct"
    case UnsafePointer => "unsafe.Pointer"
  }

  /** Kinds whose types have no element or field descriptors here. */
  predicate IsLeafKind(k: Kind) {
    k !in {Interface, Map, Ptr, Slice, Struct}
  }

  type LeafKind = k: Kind | IsLeafKind(k) witness Bool

  /** A type descriptor. `name` is what the type's String method gives. */
  datatype Type =
    | Leaf(leafKind: LeafKind, name: string)
    | SliceOf(elem: Type)
    | MapOf(key: Type, elem: Type)
    | PtrTo(elem: Type)
    | StructOf(name: string, fields: seq<Field>)
    | InterfaceOf(name: string)

  /** A struct field: its name, its `validate` tag and its type. */
  datatype Field = Field(name: string, validate: string, typ: Type)

  function KindOf(t: Type): Kind {
    match t
    case Leaf(k, _) => k
    case SliceOf(_) => Slice
    case MapOf(_, _) => Map
    case PtrTo(_) => Ptr
    case StructOf(_, _) => Struct
    case InterfaceOf(_) => Interface
  }

  /** reflect.Type's String method for unnamed composite types. */
  function TypeString(t: Type): string {
    match t
    case Leaf(_, n) => n
    case SliceOf(e) => "[]" + TypeString(e)
    case MapOf(k, e) => "map[" + TypeString(k) + "]" + TypeString(e)
    case PtrTo(e) => "*" + TypeString(e)
    case StructOf(n, _) => n
    case InterfaceOf(n) => n
  }

  /** The placeholder written for a field, by the kind it has after one
      pointer is looked through: quoted text for strings, nothing for
      structs, 1 for the integer kinds, 1.0 for floats, [] for slices and
      "?" for every other kind (a pointer to a pointer among them). */
  function Placeholder(k: Kind, fieldName: string): (r: string)
    ensures k == String ==> r == "\"test" + fieldName + "\""
    ensures r == "" <==> k == Struct
    ensures r == "1" <==> Ordinal(Int) <= Ordinal(k) <= Ordinal(Uint64)
    ensures r == "1.0" <==> k == Float32 || k == Float64
    ensures r == "[]" <==> k == Slice
    ensures r == "\"?\"" <==>
      k !in {String, Struct, Slice, Float32, Float64} && !(Ordinal(Int) <= Ordinal(k) <= Ordinal(Uint64))
  {
    if k == String then "\"test" + fieldName + "\""
    else if k == Ptr then "\"?\""
    else if k == Struct then ""
    else if Ordinal(Int) <= Ordinal(k) <= Ordinal(Uint64) then "1"
    else if k == Float32 || k == Float64 then "1.0"
    else if k == Slice then "[]"
    else "\"?\""
  }

  /** The kind a field is documented by: its own, or its element's when the
      field is a pointer. */
  function EffectiveKind(t: Type): Kind {
    if t.PtrTo? then KindOf(t.elem) else KindOf(t)
  }

  /** A field is listed as required when its tag is exactly "required" and
      its type is not a pointer. */
  predicate IsRequired(f: Field) {
    f.validate == "required" && !f.typ.PtrTo?
  }

  /** One line of the placeholder object, without separator. */
  function Entry(f: Field): string {
    "\t\"" + f.name + "\": " + Placeholder(EffectiveKind(f.typ), f.name)
  }

  /** The two texts `printStructFieldInfo` accumulates. */
  datatype Parts = Parts(body: string, optionals: string)

  /** One visible field added to the accumulator, given what its nested
      struct (if it is one) produced: the nested texts come first, then the
      field's own entry, in the required text after a ",\n" separator unless
      that text is still empty, or in the optional text ending in "\n". */
  function Add(acc: Parts, f: Field, nested: Parts): (r: Parts)
    ensures acc.body + nested.body <= r.body && acc.optionals + nested.optionals <= r.optionals
    ensures IsRequired(f) <==> r.optionals == acc.optionals + nested.optionals
    ensures !IsRequired(f) <==> r.body == acc.body + nested.body
    ensures !IsRequired(f) ==> r.optionals == acc.optionals + nested.optionals + Entry(f) + "\n"
    ensures IsRequired(f) ==> |r.body| == |acc.body + nested.body| + (if acc.body + nested.body == "" then 0 else 2) + |Entry(f)|
    ensures IsRequired(f) ==> r.body[|r.body| - |Entry(f)|..] == Entry(f)
    ensures IsRequired(f) && acc.body + nested.body != "" ==>
      r.body[|acc.body + nested.body|..|acc.body + nested.body| + 2] == ",\n"
  {
    var body := acc.body + nested.body;
    var optionals := acc.optionals + nested.optionals;
    if IsRequired(f) then
      Parts((if body != "" then body + ",\n" else body) + Entry(f), optionals)
    else
      Parts(body, optionals + Entry(f) + "\n")
  }

  /** `printStructFieldInfo`'s loop from a given accumulator. */
  function FieldInfoFrom(fields: seq<Field>, acc: Parts): (r: Parts)
    ensures acc.body <= r.body && acc.optionals <= r.optionals
    decreases fields, 2
  {
    if |fields| == 0 then acc else FieldInfoFrom(fields[1..], Next(acc, fields[0]))
  }

  /** The accumulator after one field; an "isdefault" field is skipped. */
  function Next(acc: Parts, f: Field): (r: Parts)
    ensures acc.body <= r.body && acc.optionals <= r.optionals
    decreases f, 1
  {
    if f.validate == "isdefault" then acc else Add(acc, f, Nested(f))
  }

  /** What a field's type contributes on its own: a non-pointer struct is
      walked recursively, anything else contributes nothing. */
  function Nested(f: Field): Parts
    decreases f, 0
  {
    if f.typ.StructOf? then FieldInfoFrom(f.typ.fields, Parts("", "")) else Parts("", "")
  }

  /** `printStructFieldInfo`: the required entries and the optional entries
      of a struct's placeholder object. */
  function FieldInfo(fields: seq<Field>): (r: Parts)
    ensures r.optionals == Concat(OptionalLines(fields))
    ensures r.body == Glue("", RequiredPieces(fields))
    ensures r.body == "" <==> RequiredEntries(fields) == []
  {
    var start := Parts("", "");
    OptionalsAreLines(fields, start);
    BodyGlued(fields, start);
    BodyEmptyIffNoRequired(fields, start);
    assert "" + Concat(OptionalLines(fields)) == Concat(OptionalLines(fields));
    FieldInfoFrom(fields, start)
  }

  /** The fields `printStructFieldInfo` does not skip. */
  function Visible(fields: seq<Field>): (r: seq<Field>)
    ensures |r| <= |fields|
    ensures forall i :: 0 <= i < |r| ==> r[i].validate != "isdefault"
  {
    if |fields| == 0 then []
    else (if fields[0].validate == "isdefault" then [] else [fields[0]]) + Visible(fields[1..])
  }

  /** Reference list of required entries: for each visible field in order,
      a nested struct's own required entries, then the field's entry when it
      is required. */
  function RequiredEntries(fields: seq<Field>): seq<string>
    decreases fields, 1
  {
    if |fields| == 0 then [] else OwnRequired(fields[0]) + RequiredEntries(fields[1..])
  }

  function OwnRequired(f: Field): seq<string>
    decreases f, 0
  {
    if f.validate == "isdefault" then []
    else
      (if f.typ.StructOf? then RequiredEntries(f.typ.fields) else []) +
      (if IsRequired(f) then [Entry(f)] else [])
  }

  /** Reference list of optional lines, in the same walk. */
  function OptionalLines(fields: seq<Field>): seq<string>
    decreases fields, 1
  {
    if |fields| == 0 then [] else OwnOptional(fields[0]) + OptionalLines(fields[1..])
  }

  function OwnOptional(f: Field): seq<string>
    decreases f, 0
  {
    if f.validate == "isdefault" then []
    else
      (if f.typ.StructOf? then OptionalLines(f.typ.fields) else []) +
      (if IsRequired(f) then [] else [Entry(f) + "\n"])
  }

  lemma {:induction false} ConcatAppend(a: seq<string>, b: seq<string>)
    ensures Concat(a + b) == Concat(a) + Concat(b)
  {
    if |a| > 0 {
      assert (a + b)[1..] == a[1..] + b;
      ConcatAppend(a[1..], b);
    } else {
      assert a + b == b;
    }
  }

  /** The optional text is exactly the optional lines, nested ones first,
      each ending in a newline. */
  lemma {:induction false} OptionalsAreLines(fields: seq<Field>, acc: Parts)
    ensures FieldInfoFrom(fields, acc).optionals == acc.optionals + Concat(OptionalLines(fields))
    decreases fields, 1
  {
    if |fields| > 0 {
      NextOptionals(acc, fields[0]);
      OptionalsAreLines(fields[1..], Next(acc, fields[0]));
      ConcatAppend(OwnOptional(fields[0]), OptionalLines(fields[1..]));
    }
  }

  lemma {:induction false} NextOptionals(acc: Parts, f: Field)
    ensures Next(acc, f).optionals == acc.optionals + Concat(OwnOptional(f))
    decreases f, 0
  {
    if f.validate != "isdefault" {
      var nestedLines := if f.typ.StructOf? then OptionalLines(f.typ.fields) else [];
      var ownLine: seq<string> := if IsRequired(f) then [] else [Entry(f) + "\n"];
      var nested := Nested(f);
      if f.typ.StructOf? {
        OptionalsAreLines(f.typ.fields, Parts("", ""));
      }
      assert nested.optionals == Concat(nestedLines);
      assert OwnOptional(f) == nestedLines + ownLine;
      ConcatAppend(nestedLines, ownLine);
      var own := if IsRequired(f) then "" else Entry(f) + "\n";
      assert Concat(ownLine) == own;
      assert Next(acc, f).optionals == acc.optionals + nested.optionals + own;
      Regroup3(acc.optionals, nested.optionals, own);
    }
  }

  /** The required text is empty exactly when nothing is required anywhere
      in the struct (and nothing was accumulated before). */
  lemma {:induction false} BodyEmptyIffNoRequired(fields: seq<Field>, acc: Parts)
    ensures FieldInfoFrom(fields, acc).body == "" <==> acc.body == "" && RequiredEntries(fields) == []
    decreases fields, 1
  {
    if |fields| > 0 {
      NextBodyEmpty(acc, fields[0]);
      BodyEmptyIffNoRequired(fields[1..], Next(acc, fields[0]));
    }
  }

  lemma {:induction false} NextBodyEmpty(acc: Parts, f: Field)
    ensures Next(acc, f).body == "" <==> acc.body == "" && OwnRequired(f) == []
    decreases f, 0
  {
    if f.validate != "isdefault" {
      if f.typ.StructOf? {
        BodyEmptyIffNoRequired(f.typ.fields, Parts("", ""));
      }
      var nested := Nested(f);
      assert nested.body == "" <==> (f.typ.StructOf? ==> RequiredEntries(f.typ.fields) == []);
      if IsRequired(f) {
        var body := acc.body + nested.body;
        assert Next(acc, f).body == (if body != "" then body + ",\n" else body) + Entry(f);
        assert |Entry(f)| > 0;
      }
    }
  }

  /** A piece of the required text: text appended as it is, or an entry
      appended after a ",\n" separator unless the text so far is empty. */
  datatype Piece = Bare(text: string) | Separated(entry: string)

  /** The required text after appending the pieces to `b`, in order. */
  function Glue(b: string, ps: seq<Piece>): string
    decreases |ps|
  {
    if |ps| == 0 then b
    else
      var b' := match ps[0]
        case Bare(t) => b + t
        case Separated(e) => (if b != "" then b + ",\n" else b) + e;
      Glue(b', ps[1..])
  }

  /** Reference for the required text as the code joins it: a nested
      struct's text, computed on its own, is one bare piece, and each
      required field's entry is a separated piece. */
  function RequiredPieces(fields: seq<Field>): seq<Piece>
    decreases fields, 1
  {
    if |fields| == 0 then [] else OwnPieces(fields[0]) + RequiredPieces(fields[1..])
  }

  function OwnPieces(f: Field): seq<Piece>
    decreases f, 0
  {
    if f.validate == "isdefault" then []
    else
      (if f.typ.StructOf? then [Bare(Glue("", RequiredPieces(f.typ.fields)))] else []) +
      (if IsRequired(f) then [Separated(Entry(f))] else [])
  }

  lemma {:induction false} GlueAppend(b: string, p: seq<Piece>, q: seq<Piece>)
    ensures Glue(b, p + q) == Glue(Glue(b, p), q)
    decreases |p|
  {
    if |p| > 0 {
      assert (p + q)[0] == p[0] && (p + q)[1..] == p[1..] + q;
      var b' := match p[0]
        case Bare(t) => b + t
        case Separated(e) => (if b != "" then b + ",\n" else b) + e;
      GlueAppend(b', p[1..], q);
    } else {
      assert p + q == q;
    }
  }

  /** The required text is the glued reference pieces, for every struct. */
  lemma {:induction false} BodyGlued(fields: seq<Field>, acc: Parts)
    ensures FieldInfoFrom(fields, acc).body == Glue(acc.body, RequiredPieces(fields))
    decreases fields, 1
  {
    if |fields| > 0 {
      NextBodyGlued(acc, fields[0]);
      BodyGlued(fields[1..], Next(acc, fields[0]));
      GlueAppend(acc.body, OwnPieces(fields[0]), RequiredPieces(fields[1..]));
    }
  }

  lemma {:induction false} NextBodyGlued(acc: Parts, f: Field)
    ensures Next(acc, f).body == Glue(acc.body, OwnPieces(f))
    decreases f, 0
  {
    if f.validate != "isdefault" {
      var nested := Nested(f);
      var first: seq<Piece> := if f.typ.StructOf? then [Bare(Glue("", RequiredPieces(f.typ.fields)))] else [];
      var second: seq<Piece> := if IsRequired(f) then [Separated(Entry(f))] else [];
      if f.typ.StructOf? {
        BodyGlued(f.typ.fields, Parts("", ""));
        assert Glue(acc.body, first) == acc.body + nested.body;
      } else {
        assert Glue(acc.body, first) == acc.body + nested.body;
      }
      GlueAppend(acc.body, first, second);
      assert OwnPieces(f) == first + second;
    }
  }

  /** Entries joined by ",\n" after an existing text, with no separator
      when that text is empty. */
  function JoinOnto(b: string, entries: seq<string>): string {
    if b == "" then Join(entries, ",\n")
    else if entries == [] then b
    else b + ",\n" + Join(entries, ",\n")
  }

  lemma JoinOntoStep(b: string, e: string, rest: seq<string>)
    requires e != ""
    ensures JoinOnto(b, [e] + rest) == JoinOnto((if b != "" then b + ",\n" else b) + e, rest)
  {
    assert ([e] + rest)[1..] == rest;
    if rest != [] {
      assert Join([e] + rest, ",\n") == e + ",\n" + Join(rest, ",\n");
      if b != "" {
        assert b + ",\n" + e + ",\n" + Join(rest, ",\n") == b + ",\n" + (e + ",\n" + Join(rest, ",\n"));
      }
    }
  }

  /** A struct without nested struct fields: the required entries joined by
      ",\n", with no separator before the first. */
  lemma {:induction false} FlatBodyJoined(fields: seq<Field>, acc: Parts)
    requires forall i :: 0 <= i < |fields| ==> !fields[i].typ.StructOf?
    ensures FieldInfoFrom(fields, acc).body == JoinOnto(acc.body, RequiredEntries(fields))
    decreases fields
  {
    if |fields| > 0 {
      var f := fields[0];
      var next := Next(acc, f);
      FlatBodyJoined(fields[1..], next);
      FlatStep(acc, f);
      var rest := RequiredEntries(fields[1..]);
      assert RequiredEntries(fields) == OwnRequired(f) + rest;
      if OwnRequired(f) != [] {
        assert RequiredEntries(fields) == [Entry(f)] + rest;
        JoinOntoStep(acc.body, Entry(f), rest);
      } else {
        assert RequiredEntries(fields) == rest;
      }
    }
  }

  /** One field without a nested struct: it adds its entry to the required
      text exactly when it is required. */
  lemma FlatStep(acc: Parts, f: Field)
    requires !f.typ.StructOf?
    ensures OwnRequired(f) == [] ==> Next(acc, f).body == acc.body
    ensures OwnRequired(f) != [] ==>
      OwnRequired(f) == [Entry(f)] && Entry(f) != "" &&
      Next(acc, f).body == (if acc.body != "" then acc.body + ",\n" else acc.body) + Entry(f)
  {
    assert Nested(f) == Parts("", "");
    assert acc.body + "" == acc.body;
  }


  /** The required text of a struct without nested structs. */
  lemma FlatStructBody(fields: seq<Field>)
    requires forall i :: 0 <= i < |fields| ==> !fields[i].typ.StructOf?
    ensures FieldInfo(fields).body == Join(RequiredEntries(fields), ",\n")
  {
    FlatBodyJoined(fields, Parts("", ""));
  }

  /** Skipping every "isdefault" field changes nothing: such fields
      contribute to neither text. */
  lemma {:induction false} IsDefaultIgnored(fields: seq<Field>, acc: Parts)
    ensures FieldInfoFrom(Visible(fields), acc) == FieldInfoFrom(fields, acc)
    decreases fields
  {
    if |fields| > 0 {
      var f := fields[0];
      var v := Visible(fields);
      if f.validate == "isdefault" {
        assert v == Visible(fields[1..]);
        IsDefaultIgnored(fields[1..], acc);
      } else {
        assert v == [f] + Visible(fields[1..]);
        assert v[0] == f && v[1..] == Visible(fields[1..]);
        IsDefaultIgnored(fields[1..], Next(acc, f));
      }
    }
  }

  /** A nested struct's required text is appended to the outer text as it
      is, with no ",\n" before it: in `{A int; Inner struct{B int}}` with
      every field required, the entry for B follows the entry for A directly. */
  lemma NestedBodyUnseparated()
    ensures var int_ := Leaf(Int, "int");
      var inner := StructOf("Inner", [Field("B", "required", int_)]);
      FieldInfo([Field("A", "required", int_), Field("Inner", "required", inner)]).body ==
        "\t\"A\": 1" + "\t\"B\": 1" + ",\n" + "\t\"Inner\": "
  {
    var int_ := Leaf(Int, "int");
    var b := Field("B", "required", int_);
    var a := Field("A", "required", int_);
    var inner := Field("Inner", "required", StructOf("Inner", [b]));
    ExampleEntries();
    PiecesOfOne(b);
    RequiredLeafPieces(b);
    var innerText := Glue("", RequiredPieces([b]));
    GlueOne(Entry(b));
    RequiredLeafPieces(a);
    RequiredStructPieces(inner);
    PiecesOfTwo(a, inner);
    assert RequiredPieces([a, inner]) == [Separated(Entry(a)), Bare(innerText), Separated(Entry(inner))];
    GlueThree(Entry(a), innerText, Entry(inner));
  }

  /** The entries of the example struct. */
  lemma ExampleEntries()
    ensures Entry(Field("A", "required", Leaf(Int, "int"))) == "\t\"A\": 1"
    ensures Entry(Field("B", "required", Leaf(Int, "int"))) == "\t\"B\": 1"
    ensures Entry(Field("Inner", "required", StructOf("Inner", [Field("B", "required", Leaf(Int, "int"))]))) == "\t\"Inner\": "
  {
  }

  lemma RequiredLeafPieces(f: Field)
    requires f.validate == "required" && !f.typ.StructOf? && !f.typ.PtrTo?
    ensures OwnPieces(f) == [Separated(Entry(f))]
  {
  }

  lemma RequiredStructPieces(f: Field)
    requires f.validate == "required" && f.typ.StructOf?
    ensures OwnPieces(f) == [Bare(Glue("", RequiredPieces(f.typ.fields))), Separated(Entry(f))]
  {
  }

  lemma PiecesOfOne(f: Field)
    ensures RequiredPieces([f]) == OwnPieces(f)
  {
    assert [f][1..] == [];
  }

  lemma PiecesOfTwo(f: Field, g: Field)
    ensures RequiredPieces([f, g]) == OwnPieces(f) + OwnPieces(g)
  {
    assert [f, g][1..] == [g];
    PiecesOfOne(g);
  }

  lemma GlueOne(x: string)
    ensures Glue("", [Separated(x)]) == x
  {
    assert [Separated(x)][1..] == [];
    assert "" + x == x;
  }

  lemma GlueThree(x: string, y: string, z: string)
    requires x != ""
    ensures Glue("", [Separated(x), Bare(y), Separated(z)]) == x + y + ",\n" + z
  {
    var ps := [Separated(x), Bare(y), Separated(z)];
    assert ps[1..] == [Bare(y), Separated(z)] && ps[1..][1..] == [Separated(z)] && ps[1..][1..][1..] == [];
    assert "" + x == x;
    assert Glue("", ps) == Glue("" + x, ps[1..]);
    assert Glue(x, ps[1..]) == Glue(x + y, ps[1..][1..]);
    assert x + y != "";
    assert Glue(x + y, ps[1..][1..]) == Glue(x + y + ",\n" + z, []);
  }


  /** A nested (non-pointer) struct field contributes the nested struct's
      texts first and is then still listed itself, with an empty value. */
  lemma NestedFieldListed(acc: Parts, f: Field)
    requires f.validate != "isdefault" && f.typ.StructOf?
    ensures Next(acc, f) == Add(acc, f, FieldInfo(f.typ.fields))
    ensures Entry(f) == "\t\"" + f.name + "\": "
  {
  }

  /** A pointer field is never required: it goes to the optional text with
      the placeholder of the type it points to. */
  lemma PointerFieldOptional(acc: Parts, f: Field)
    requires f.validate != "isdefault" && f.typ.PtrTo?
    ensures Next(acc, f) == Parts(acc.body, acc.optionals + Entry(f) + "\n")
    ensures Entry(f) == "\t\"" + f.name + "\": " + Placeholder(KindOf(f.typ.elem), f.name)
  {
    assert !IsRequired(f) && Nested(f) == Parts("", "");
    assert acc.body + "" == acc.body && acc.optionals + "" == acc.optionals;
  }

  // ---------------------------------------------------------------------
  // Request section (printInputParams)

  /** A handler parameter as the documentation sees it: the two
      authentication types and the uploaded file are recognised by type,
      anything else by its descriptor. */
  datatype InputParam = OptionalAuthParam | AuthParam | FileParam | TypedParam(t: Type)

  /** The header line a parameter adds. */
  function HeaderLine(p: InputParam): string {
    match p
    case OptionalAuthParam => "- idToken: {{idToken}}  //optional\n"
    case AuthParam => "- idToken: {{idToken}}\n"
    case FileParam => "- Content-Type: multipart/form-data\n"
    case TypedParam(_) => ""
  }

  /** The placeholder texts a parameter adds: only struct types add any. */
  function ParamParts(p: InputParam): Parts {
    if p.TypedParam? && p.t.StructOf? then FieldInfo(p.t.fields) else Parts("", "")
  }

  datatype InputParts = InputParts(headers: string, body: string, optionals: string)

  /** What one parameter adds in `printInputParams`. */
  function InputStep(acc: InputParts, p: InputParam): InputParts {
    match p
    case OptionalAuthParam => acc.(headers := acc.headers + "- idToken: {{idToken}}  //optional\n")
    case AuthParam => acc.(headers := acc.headers + "- idToken: {{idToken}}\n")
    case FileParam => acc.(headers := acc.headers + "- Content-Type: multipart/form-data\n")
    case TypedParam(t) =>
      if t.StructOf? then
        var info := FieldInfo(t.fields);
        acc.(body := acc.body + info.body, optionals := acc.optionals + info.optionals)
      else acc
  }

  /** The parameter loop of `printInputParams`. */
  function InputFrom(params: seq<InputParam>, acc: InputParts): InputParts {
    if |params| == 0 then acc else InputFrom(params[1..], InputStep(acc, params[0]))
  }

  const JsonContentTypeLine: string := "- Content-Type: application/json\n"

  /** The "Optional params" block of the request object: present exactly
      when there are optional entries, and then a comment line before them. */
  function OptionalBlock(optionals: string): (r: string)
    ensures r == "" <==> optionals == ""
    ensures optionals != "" ==> r == "\n\n\t//Optional params\n" + optionals
  {
    if |optionals| > 0 then "\n\n\t//Optional params\n" + optionals else ""
  }

  /** The headers block: its heading, then the header lines. */
  function HeadersBlock(headers: string): string {
    "### Headers\n" + headers
  }

  /** The request object: the required entries, then the optional block. */
  function RequestObject(body: string, optionals: string): string {
    "\n### Request Params\n```jsx\n{\n" + body + OptionalBlock(optionals) + "}\n```\n"
  }

  /** `printInputParams`: the headers block (the JSON content type, then
      each parameter's header line), then the placeholder object holding
      each struct parameter's required entries and, after an "Optional
      params" comment, their optional entries. */
  function PrintInputParams(params: seq<InputParam>): (r: string)
    ensures HasPrefix(r, "### Headers\n" + JsonContentTypeLine)
  {
    var start := InputParts(JsonContentTypeLine, "", "");
    var parts := InputFrom(params, start);
    var head := HeadersBlock(parts.headers);
    var tail := RequestObject(parts.body, parts.optionals);
    InputHeadersStart(params, start);
    PrefixCons("### Headers\n", parts.headers, JsonContentTypeLine);
    PrefixAppend(head, "### Headers\n" + JsonContentTypeLine, tail);
    head + tail
  }

  lemma {:induction false} InputHeadersStart(params: seq<InputParam>, acc: InputParts)
    ensures HasPrefix(InputFrom(params, acc).headers, acc.headers)
  {
    if |params| > 0 {
      var next := InputStep(acc, params[0]);
      InputHeadersStart(params[1..], next);
      assert HasPrefix(next.headers, acc.headers);
    }
  }

  /** The per-parameter lines, in parameter order. */
  function HeaderLines(params: seq<InputParam>): seq<string> {
    seq(|params|, i requires 0 <= i < |params| => HeaderLine(params[i]))
  }

  function BodyTexts(params: seq<InputParam>): seq<string> {
    seq(|params|, i requires 0 <= i < |params| => ParamParts(params[i]).body)
  }

  function OptionalTexts(params: seq<InputParam>): seq<string> {
    seq(|params|, i requires 0 <= i < |params| => ParamParts(params[i]).optionals)
  }

  /** Every parameter contributes independently and in order: its header
      line to the headers, a struct's required and optional texts to the
      object. */
  lemma {:induction false} InputDecomposed(params: seq<InputParam>, acc: InputParts)
    ensures InputFrom(params, acc) == InputParts(
      acc.headers + Concat(HeaderLines(params)),
      acc.body + Concat(BodyTexts(params)),
      acc.optionals + Concat(OptionalTexts(params)))
  {
    if |params| > 0 {
      var p := params[0];
      var next := InputStep(acc, p);
      assert InputFrom(params, acc) == InputFrom(params[1..], next);
      InputStepParts(acc, p);
      InputDecomposed(params[1..], next);
      TextsCons(params);
      Regroup3(acc.headers, HeaderLine(p), Concat(HeaderLines(params[1..])));
      Regroup3(acc.body, ParamParts(p).body, Concat(BodyTexts(params[1..])));
      Regroup3(acc.optionals, ParamParts(p).optionals, Concat(OptionalTexts(params[1..])));
    } else {
      assert HeaderLines(params) == [] && BodyTexts(params) == [] && OptionalTexts(params) == [];
      assert acc.headers + "" == acc.headers && acc.body + "" == acc.body && acc.optionals + "" == acc.optionals;
    }
  }

  lemma Regroup3(a: string, b: string, c: string)
    ensures a + b + c == a + (b + c)
  {
  }

  /** One parameter adds its header line and its placeholder texts. */
  lemma InputStepParts(acc: InputParts, p: InputParam)
    ensures InputStep(acc, p) ==
      InputParts(acc.headers + HeaderLine(p), acc.body + ParamParts(p).body, acc.optionals + ParamParts(p).optionals)
  {
    match p
    case OptionalAuthParam =>
      assert acc.body + "" == acc.body && acc.optionals + "" == acc.optionals;
    case AuthParam =>
      assert acc.body + "" == acc.body && acc.optionals + "" == acc.optionals;
    case FileParam =>
      assert acc.body + "" == acc.body && acc.optionals + "" == acc.optionals;
    case TypedParam(t) =>
      assert acc.headers + "" == acc.headers;
      if !t.StructOf? {
        assert acc.body + "" == acc.body && acc.optionals + "" == acc.optionals;
      }
  }

  /** The per-parameter texts of a non-empty list: the first parameter's,
      then the rest's. */
  lemma TextsCons(params: seq<InputParam>)
    requires |params| > 0
    ensures Concat(HeaderLines(params)) == HeaderLine(params[0]) + Concat(HeaderLines(params[1..]))
    ensures Concat(BodyTexts(params)) == ParamParts(params[0]).body + Concat(BodyTexts(params[1..]))
    ensures Concat(OptionalTexts(params)) == ParamParts(params[0]).optionals + Concat(OptionalTexts(params[1..]))
  {
    assert HeaderLines(params)[1..] == HeaderLines(params[1..]);
    assert BodyTexts(params)[1..] == BodyTexts(params[1..]);
    assert OptionalTexts(params)[1..] == OptionalTexts(params[1..]);
  }

  /** The whole input section for any parameters: the headers block with
      each parameter's header line, then the request object with each struct
      parameter's required entries and, when any exist, the optional block
      with each one's optional entries. */
  lemma InputText(params: seq<InputParam>)
    ensures PrintInputParams(params) ==
      HeadersBlock(JsonContentTypeLine + Concat(HeaderLines(params))) +
      RequestObject(Concat(BodyTexts(params)), Concat(OptionalTexts(params)))
  {
    var start := InputParts(JsonContentTypeLine, "", "");
    var parts := InputFrom(params, start);
    InputDecomposed(params, start);
    assert parts.headers == JsonContentTypeLine + Concat(HeaderLines(params));
    assert parts.body == Concat(BodyTexts(params)) && parts.optionals == Concat(OptionalTexts(params));
    assert PrintInputParams(params) == HeadersBlock(parts.headers) + RequestObject(parts.body, parts.optionals);
  }

  /** With no optional entries the object has no "Optional params" block. */
  lemma InputWithoutOptionals(params: seq<InputParam>)
    requires forall i :: 0 <= i < |params| ==> ParamParts(params[i]).optionals == ""
    ensures PrintInputParams(params) ==
      ("### Headers\n" + (JsonContentTypeLine + Concat(HeaderLines(params)))) +
      ("\n### Request Params\n```jsx\n{\n" + Concat(BodyTexts(params)) + "" + "}\n```\n")
  {
    InputText(params);
    ConcatEmpty(OptionalTexts(params));
  }

  /** The "Optional params" block is written exactly when some struct
      parameter has an optional entry. */
  lemma OptionalBlockShown(params: seq<InputParam>)
    ensures Concat(OptionalTexts(params)) != "" <==>
      exists i :: 0 <= i < |params| && ParamParts(params[i]).optionals != ""
  {
    var texts := OptionalTexts(params);
    ConcatEmpty(texts);
    assert forall i :: 0 <= i < |params| ==> texts[i] == ParamParts(params[i]).optionals;
  }

  /** A concatenation is empty exactly when every piece is. */
  lemma {:induction false} ConcatEmpty(parts: seq<string>)
    ensures Concat(parts) == "" <==> forall i :: 0 <= i < |parts| ==> parts[i] == ""
  {
    if |parts| > 0 {
      ConcatEmpty(parts[1..]);
      assert forall i :: 0 < i < |parts| ==> parts[i] == parts[1..][i - 1];
    }
  }

  // ---------------------------------------------------------------------
  // Response section (printOutputParams)

  /** What one result type does in `printOutputParams`: a struct replaces
      both texts, an interface (such as `error`) adds nothing, a map adds
      its key type and element kind, anything else its type name. */
  function OutputStep(acc: Parts, t: Type): Parts {
    match t
    case StructOf(_, fields) => FieldInfo(fields)
    case InterfaceOf(_) => acc
    case MapOf(k, e) => Parts(acc.body + "\tmap[" + TypeString(k) + "]" + KindName(KindOf(e)) + "\n", acc.optionals)
    case _ => Parts(acc.body + "\t" + TypeString(t) + "\n", acc.optionals)
  }

  /** The result loop of `printOutputParams`. */
  function OutputFrom(results: seq<Type>, acc: Parts): Parts {
    if |results| == 0 then acc else OutputFrom(results[1..], OutputStep(acc, results[0]))
  }

  /** `printOutputParams`: the response section, written only when there is
      something to show. */
  function PrintOutputParams(results: seq<Type>): (r: string)
    ensures var parts := OutputFrom(results, Parts("", ""));
      r == "" <==> parts.body == "" && parts.optionals == ""
    ensures r != "" ==> HasPrefix(r, "### Response Params\n")
    ensures var parts := OutputFrom(results, Parts("", ""));
      r != "" ==> r == "### Response Params\n" + "```jsx\n" + "{\n" + parts.body + parts.optionals + "}\n" + "```\n"
  {
    var parts := OutputFrom(results, Parts("", ""));
    if |parts.body| > 0 || |parts.optionals| > 0 then
      "### Response Params\n" + "```jsx\n" + "{\n" + parts.body + parts.optionals + "}\n" + "```\n"
    else ""
  }

  /** The line a result type that is not a struct adds: nothing for an
      interface, the key type and element kind for a map, the type's name
      otherwise. */
  function ResultLine(t: Type): string {
    match t
    case InterfaceOf(_) => ""
    case MapOf(k, e) => "\tmap[" + TypeString(k) + "]" + KindName(KindOf(e)) + "\n"
    case _ => "\t" + TypeString(t) + "\n"
  }

  /** The lines of a list of result types, in order. */
  function ResultLines(results: seq<Type>): seq<string> {
    seq(|results|, i requires 0 <= i < |results| => ResultLine(results[i]))
  }

  /** Results with no struct among them append their lines to the required
      text, in order, and leave the optional text alone. */
  lemma {:induction false} OutputWithoutStructs(results: seq<Type>, acc: Parts)
    requires forall i :: 0 <= i < |results| ==> !results[i].StructOf?
    ensures OutputFrom(results, acc) == Parts(acc.body + Concat(ResultLines(results)), acc.optionals)
  {
    if |results| == 0 {
      assert acc.body + "" == acc.body;
    } else {
      var t := results[0];
      var next := OutputStep(acc, t);
      assert next == Parts(acc.body + ResultLine(t), acc.optionals);
      OutputWithoutStructs(results[1..], next);
      assert ResultLines(results)[1..] == ResultLines(results[1..]);
      Regroup3(acc.body, ResultLine(t), Concat(ResultLines(results[1..])));
    }
  }

  /** The texts after the last struct result: that struct's texts, with the
      lines of the later results appended to its required text. */
  lemma OutputAfterLastStruct(results: seq<Type>, i: nat, acc: Parts)
    requires i < |results| && results[i].StructOf?
    requires forall j :: i < j < |results| ==> !results[j].StructOf?
    ensures var info := FieldInfo(results[i].fields);
      OutputFrom(results, acc) == Parts(info.body + Concat(ResultLines(results[i + 1..])), info.optionals)
  {
    StructResultReplaces(results, i, acc);
    OutputWithoutStructs(results[i + 1..], FieldInfo(results[i].fields));
  }

  /** The results that are not interfaces. */
  function NonInterface(results: seq<Type>): seq<Type> {
    if |results| == 0 then []
    else (if results[0].InterfaceOf? then [] else [results[0]]) + NonInterface(results[1..])
  }

  /** Interface results, `error` among them, do not affect the output. */
  lemma {:induction false} InterfaceResultsIgnored(results: seq<Type>, acc: Parts)
    ensures OutputFrom(NonInterface(results), acc) == OutputFrom(results, acc)
  {
    if |results| > 0 {
      var t := results[0];
      var rest := NonInterface(results[1..]);
      if t.InterfaceOf? {
        assert NonInterface(results) == rest;
        InterfaceResultsIgnored(results[1..], acc);
      } else {
        var v := NonInterface(results);
        assert v == [t] + rest;
        assert v[0] == t && v[1..] == rest;
        var next := OutputStep(acc, t);
        InterfaceResultsIgnored(results[1..], next);
      }
    }
  }

  /** A struct result discards whatever earlier results wrote: the output
      depends only on the struct and the results after it. */
  lemma {:induction false} StructResultReplaces(results: seq<Type>, i: nat, acc: Parts)
    requires i < |results| && results[i].StructOf?
    ensures OutputFrom(results, acc) == OutputFrom(results[i + 1..], FieldInfo(results[i].fields))
  {
    var next := OutputStep(acc, results[0]);
    if i > 0 {
      StructResultReplaces(results[1..], i - 1, next);
      assert results[1..][i - 1 + 1..] == results[i + 1..];
    }
  }

  /** The usual `(T, error)` handler documents exactly T's fields. */
  lemma StructAndErrorResults(name: string, fields: seq<Field>, errName: string)
    ensures var info := FieldInfo(fields);
      PrintOutputParams([StructOf(name, fields), InterfaceOf(errName)]) ==
        if info.body == "" && info.optionals == "" then ""
        else "### Response Params\n" + "```jsx\n" + "{\n" + info.body + info.optionals + "}\n" + "```\n"
  {
    var results := [StructOf(name, fields), InterfaceOf(errName)];
    StructResultReplaces(results, 0, Parts("", ""));
    assert results[1..] == [InterfaceOf(errName)];
  }

  // ---------------------------------------------------------------------
  // Route sections (printRouteHandlers) and the routes header

  /** A handler as documented: its parameters and its result types. */
  datatype DocHandler = DocHandler(inputs: seq<InputParam>, outputs: seq<Type>)

  datatype DocHandlers = DocHandlers(
    get: Option<DocHandler>,
    post: Option<DocHandler>,
    put: Option<DocHandler>,
    delete: Option<DocHandler>)

  /** The start of a section's title line. */
  function Heading(title: string): string {
    "# " + title + " `"
  }

  /** A section's title line (the route with every "/" turned into a space)
      and its request line in a code block. */
  function RequestLine(title: string, verb: string, route: string, basePath: string): string {
    Heading(title) + (ReplaceAll(route, '/', ' ') + "`\n" +
      "```jsx\n" + verb + " " + basePath + route + "\n" + "```\n")
  }

  /** One verb's section (`printRouteHandlers` for one verb, then
      `printParams`): the title and request lines, then the input section,
      then the response section. */
  function Section(title: string, verb: string, route: string, basePath: string, h: DocHandler): (r: string)
    ensures HasPrefix(r, Heading(title))
    ensures HasPrefix(r, RequestLine(title, verb, route, basePath) + "### Headers\n")
  {
    var opening := Heading(title);
    var line := ReplaceAll(route, '/', ' ') + "`\n" + "```jsx\n" + verb + " " + basePath + route + "\n" + "```\n";
    var head := RequestLine(title, verb, route, basePath);
    assert head == opening + line;
    var input := PrintInputParams(h.inputs);
    var output := PrintOutputParams(h.outputs);
    PrefixShorten(input, "### Headers\n", JsonContentTypeLine);
    PrefixCons(head, input, "### Headers\n");
    PrefixAppend(head + input, head + "### Headers\n", output);
    PrefixShorten(head + input + output, head, "### Headers\n");
    PrefixShorten(head + input + output, opening, line);
    head + input + output
  }

  /** After its title and request lines a section holds exactly the input
      section and then the response section (`printParams`). */
  lemma SectionParts(title: string, verb: string, route: string, basePath: string, h: DocHandler)
    ensures var r := Section(title, verb, route, basePath, h);
      var head := RequestLine(title, verb, route, basePath);
      |head| <= |r| && r[|head|..] == PrintInputParams(h.inputs) + PrintOutputParams(h.outputs)
    ensures var r := Section(title, verb, route, basePath, h);
      var output := PrintOutputParams(h.outputs);
      |output| <= |r| && r[|r| - |output|..] == output
  {
    var head := RequestLine(title, verb, route, basePath);
    var input := PrintInputParams(h.inputs);
    var output := PrintOutputParams(h.outputs);
    assert Section(title, verb, route, basePath, h) == head + (input + output);
    assert (head + (input + output))[|head|..] == input + output;
  }

  /** The section of a handler returning `(T, error)` ends with T's
      response object, or with its input section when T shows nothing. */
  lemma SectionOfStructAndError(title: string, verb: string, route: string, basePath: string,
                                h: DocHandler, name: string, fields: seq<Field>, errName: string)
    requires h.outputs == [StructOf(name, fields), InterfaceOf(errName)]
    ensures var info := FieldInfo(fields);
      var r := Section(title, verb, route, basePath, h);
      var response := "### Response Params\n" + "```jsx\n" + "{\n" + info.body + info.optionals + "}\n" + "```\n";
      (info.body == "" && info.optionals == "" ==>
        r == RequestLine(title, verb, route, basePath) + PrintInputParams(h.inputs)) &&
      (info.body != "" || info.optionals != "" ==>
        |response| <= |r| && r[|r| - |response|..] == response)
  {
    StructAndErrorResults(name, fields, errName);
    var r := Section(title, verb, route, basePath, h);
    var head := RequestLine(title, verb, route, basePath);
    if PrintOutputParams(h.outputs) == "" {
      assert r == head + (PrintInputParams(h.inputs) + "");
    }
  }

  /** The title shows the route with every "/" turned into a space and all
      other characters kept. */
  lemma SectionTitle(route: string)
    ensures var t := ReplaceAll(route, '/', ' ');
      '/' !in t && |t| == |route| &&
      forall i :: 0 <= i < |route| && route[i] != '/' ==> t[i] == route[i]
  {
    var t := ReplaceAll(route, '/', ' ');
    forall i | 0 <= i < |t|
      ensures t[i] != '/'
    {
    }
  }

  /** A verb's section when a handler is registered for it, else nothing. */
  function SectionIf(title: string, verb: string, route: string, basePath: string, h: Option<DocHandler>): (r: string)
    ensures r == "" <==> h.None?
    ensures h.Some? ==> HasPrefix(r, Heading(title))
  {
    if h.Some? then Section(title, verb, route, basePath, h.value) else ""
  }

  /** `printRouteHandlers`: POST, GET, PUT and DELETE, each when present. */
  function PrintRouteHandlers(hs: DocHandlers, route: string, basePath: string): (r: string)
    ensures r == "" <==> hs.post.None? && hs.get.None? && hs.put.None? && hs.delete.None?
    ensures hs.post.Some? ==> HasPrefix(r, Heading("create"))
    ensures hs.post.None? && hs.get.Some? ==> HasPrefix(r, Heading("retrieve"))
    ensures hs.post.None? && hs.get.None? && hs.put.Some? ==> HasPrefix(r, Heading("update"))
    ensures hs.post.None? && hs.get.None? && hs.put.None? && hs.delete.Some? ==> HasPrefix(r, Heading("delete"))
  {
    var a := SectionIf("create", "POST", route, basePath, hs.post);
    var b := SectionIf("retrieve", "GET", route, basePath, hs.get);
    var c := SectionIf("update", "PUT", route, basePath, hs.put);
    var d := SectionIf("delete", "DELETE", route, basePath, hs.delete);
    FirstNonEmptyLeads(a, b, c, d, Heading("create"), Heading("retrieve"), Heading("update"), Heading("delete"));
    a + b + c + d
  }


  /** A documented verb: section title, verb, handler. */
  datatype Documented = Documented(title: string, verb: string, handler: DocHandler)

  /** The verbs in documentation order, paired with their titles. */
  function VerbTable(hs: DocHandlers): seq<(string, string, Option<DocHandler>)> {
    [("create", "POST", hs.post), ("retrieve", "GET", hs.get), ("update", "PUT", hs.put), ("delete", "DELETE", hs.delete)]
  }

  /** The registered verbs, in table order. */
  function Present(table: seq<(string, string, Option<DocHandler>)>): (r: seq<Documented>)
    ensures |r| <= |table|
  {
    if |table| == 0 then []
    else
      (if table[0].2.Some? then [Documented(table[0].0, table[0].1, table[0].2.value)] else []) +
      Present(table[1..])
  }

  /** Each documented verb's section, in order. */
  function Sections(ds: seq<Documented>, route: string, basePath: string): seq<string> {
    if |ds| == 0 then []
    else [Section(ds[0].title, ds[0].verb, route, basePath, ds[0].handler)] + Sections(ds[1..], route, basePath)
  }

  /** The route's documentation is one section per registered verb, in the
      order POST, GET, PUT, DELETE, and nothing for the others. */
  lemma RouteSectionsInOrder(hs: DocHandlers, route: string, basePath: string)
    ensures PrintRouteHandlers(hs, route, basePath) == Concat(Sections(Present(VerbTable(hs)), route, basePath))
  {
    var table := VerbTable(hs);
    PresentSections(table, route, basePath);
    TableSections(hs, route, basePath);
  }

  lemma TableSections(hs: DocHandlers, route: string, basePath: string)
    ensures PrintRouteHandlers(hs, route, basePath) == ConcatSectionsOf(VerbTable(hs), route, basePath)
  {
    var e0, e1, e2, e3 := ("create", "POST", hs.post), ("retrieve", "GET", hs.get), ("update", "PUT", hs.put), ("delete", "DELETE", hs.delete);
    var c3 := ConcatSectionsCons(e3, [], route, basePath);
    var c2 := ConcatSectionsCons(e2, [e3], route, basePath);
    var c1 := ConcatSectionsCons(e1, [e2, e3], route, basePath);
    var c0 := ConcatSectionsCons(e0, [e1, e2, e3], route, basePath);
    assert [e0, e1, e2, e3] == VerbTable(hs);
    var a, b, c, d := SectionIf(e0.0, e0.1, route, basePath, e0.2), SectionIf(e1.0, e1.1, route, basePath, e1.2),
      SectionIf(e2.0, e2.1, route, basePath, e2.2), SectionIf(e3.0, e3.1, route, basePath, e3.2);
    assert ConcatSectionsOf([], route, basePath) == "";
    assert c3 == d;
    assert c0 == a + (b + (c + d));
    assert PrintRouteHandlers(hs, route, basePath) == a + b + c + d;
    Regroup(a, b, c, d);
    assert [e0] + [e1, e2, e3] == VerbTable(hs);
    assert c0 == ConcatSectionsOf(VerbTable(hs), route, basePath);
  }

  /** In a concatenation of four texts, the first non-empty one's prefix
      begins the whole. */
  lemma FirstNonEmptyLeads(a: string, b: string, c: string, d: string, pa: string, pb: string, pc: string, pd: string)
    requires a != "" ==> HasPrefix(a, pa)
    requires b != "" ==> HasPrefix(b, pb)
    requires c != "" ==> HasPrefix(c, pc)
    requires d != "" ==> HasPrefix(d, pd)
    ensures a + b + c + d == "" <==> a == "" && b == "" && c == "" && d == ""
    ensures a != "" ==> HasPrefix(a + b + c + d, pa)
    ensures a == "" && b != "" ==> HasPrefix(a + b + c + d, pb)
    ensures a == "" && b == "" && c != "" ==> HasPrefix(a + b + c + d, pc)
    ensures a == "" && b == "" && c == "" && d != "" ==> HasPrefix(a + b + c + d, pd)
  {
    Regroup(a, b, c, d);
    if a != "" {
      PrefixAppend(a, pa, b + (c + d));
    } else if b != "" {
      PrefixAppend(b, pb, c + d);
    } else if c != "" {
      PrefixAppend(c, pc, d);
    }
  }

  lemma Regroup(a: string, b: string, c: string, d: string)
    ensures a + b + c + d == a + (b + (c + d))
  {
  }

  /** Unfolds `ConcatSectionsOf` once, naming the text for later steps. */
  lemma ConcatSectionsCons(e: (string, string, Option<DocHandler>), rest: seq<(string, string, Option<DocHandler>)>, route: string, basePath: string)
    returns (text: string)
    ensures text == ConcatSectionsOf([e] + rest, route, basePath)
    ensures text == SectionIf(e.0, e.1, route, basePath, e.2) + ConcatSectionsOf(rest, route, basePath)
  {
    assert ([e] + rest)[1..] == rest;
    text := ConcatSectionsOf([e] + rest, route, basePath);
  }

  /** The number of registered entries of a verb table. */
  function Registrations(table: seq<(string, string, Option<DocHandler>)>): nat {
    if |table| == 0 then 0 else (if table[0].2.Some? then 1 else 0) + Registrations(table[1..])
  }

  /** Every registered entry, and only those, yields a documented verb. */
  lemma {:induction false} PresentCount(table: seq<(string, string, Option<DocHandler>)>)
    ensures |Present(table)| == Registrations(table)
  {
    if |table| > 0 {
      PresentCount(table[1..]);
    }
  }

  lemma RegistrationsCons(e: (string, string, Option<DocHandler>), rest: seq<(string, string, Option<DocHandler>)>)
    ensures Registrations([e] + rest) == (if e.2.Some? then 1 else 0) + Registrations(rest)
  {
    assert ([e] + rest)[1..] == rest;
  }

  /** One section per registered verb. */
  lemma SectionCount(hs: DocHandlers)
    ensures |Present(VerbTable(hs))| ==
      (if hs.post.Some? then 1 else 0) + (if hs.get.Some? then 1 else 0) +
      (if hs.put.Some? then 1 else 0) + (if hs.delete.Some? then 1 else 0)
  {
    var e0, e1, e2, e3 := ("create", "POST", hs.post), ("retrieve", "GET", hs.get), ("update", "PUT", hs.put), ("delete", "DELETE", hs.delete);
    PresentCount(VerbTable(hs));
    RegistrationsCons(e3, []);
    RegistrationsCons(e2, [e3]);
    RegistrationsCons(e1, [e2, e3]);
    RegistrationsCons(e0, [e1, e2, e3]);
    assert [e0] + [e1, e2, e3] == VerbTable(hs);
    assert [e1] + [e2, e3] == [e1, e2, e3] && [e2] + [e3] == [e2, e3] && [e3] + [] == [e3];
  }

  /** The text of a verb table's sections, entry by entry. */
  function ConcatSectionsOf(table: seq<(string, string, Option<DocHandler>)>, route: string, basePath: string): string {
    if |table| == 0 then ""
    else SectionIf(table[0].0, table[0].1, route, basePath, table[0].2) + ConcatSectionsOf(table[1..], route, basePath)
  }

  lemma {:induction false} PresentSections(table: seq<(string, string, Option<DocHandler>)>, route: string, basePath: string)
    ensures Concat(Sections(Present(table), route, basePath)) == ConcatSectionsOf(table, route, basePath)
  {
    if |table| > 0 {
      PresentSections(table[1..], route, basePath);
      var rest := Present(table[1..]);
      var tail := ConcatSectionsOf(table[1..], route, basePath);
      assert ConcatSectionsOf(table, route, basePath) == SectionIf(table[0].0, table[0].1, route, basePath, table[0].2) + tail;
      if table[0].2.Some? {
        var d := Documented(table[0].0, table[0].1, table[0].2.value);
        assert Present(table) == [d] + rest;
        SectionsCons(d, rest, route, basePath);
      } else {
        assert Present(table) == rest;
      }
    }
  }

  lemma SectionsCons(d: Documented, rest: seq<Documented>, route: string, basePath: string)
    ensures Concat(Sections([d] + rest, route, basePath)) ==
      Section(d.title, d.verb, route, basePath, d.handler) + Concat(Sections(rest, route, basePath))
  {
    var first := Section(d.title, d.verb, route, basePath, d.handler);
    assert ([d] + rest)[1..] == rest;
    var ss := [first] + Sections(rest, route, basePath);
    assert Sections([d] + rest, route, basePath) == ss;
    assert ss[1..] == Sections(rest, route, basePath);
  }

  /** The comment lines of a routes header, each followed by a newline. */
  function CommentLines(comments: seq<string>): string {
    if |comments| == 0 then "" else comments[0] + "\n" + CommentLines(comments[1..])
  }

  /** `AddRoutesHeader`: a heading naming the route, then the comments one
      per line, in order, inside a code block. */
  function AddRoutesHeader(route: string, comments: seq<string>): (r: string)
    ensures r == "# `" + route + "` endpoints \n" + "```jsx\n" +
      (if comments == [] then "" else Join(comments, "\n") + "\n") + "```\n"
  {
    CommentsJoined(comments);
    "# `" + route + "` endpoints \n" + "```jsx\n" + CommentLines(comments) + "```\n"
  }

  /** The routes header holds the comments one per line, in order. */
  lemma {:induction false} CommentsJoined(comments: seq<string>)
    ensures CommentLines(comments) == if comments == [] then "" else Join(comments, "\n") + "\n"
  {
    if |comments| > 1 {
      CommentsJoined(comments[1..]);
      assert comments[0] + "\n" + (Join(comments[1..], "\n") + "\n") ==
        (comments[0] + "\n" + Join(comments[1..], "\n")) + "\n";
    }
  }
}

=== FILE: binding.dfy ===
/** Parameter binding (`getValidatedInputParams` in beautyrest.go): for each
    declared handler parameter, in order, a capability type is constructed
    from the request; otherwise an uploaded file or a copy of the request is
    supplied; otherwise a struct is decoded from the body, overlaid with the
    query string and validated.

    Everything the Go code delegates to libraries or to user types (the
    `MakeFromRequest` implementations, `FormFile`, `ParseForm`, the JSON
    parser, the validator) is an answer supplied in a `Foreign` record. */
module Binding {
  import opened Wrappers
  import StrConv
  import opened Strs

  newtype byte = b: int | 0 <= b < 256

  /** A Go interface value (`any`): nil, or a value of some dynamic type.
      `json` is what encoding/json writes for it, `errorText` is the text of
      its `Error()` method when the type implements `error`, and `writer`
      says whether it implements `http.ResponseWriter`. */
  datatype Any =
    | Nil
    | Obj(typeName: string, json: string, errorText: Option<string>, writer: bool)

  /** A JSON value as it arrives at a struct field: an integer, a number
      with a fraction or exponent (kept as its text), a string, a boolean,
      null, or an array or object (kept as its text). */
  datatype Val = VInt(i: int) | VFrac(text: string) | VStr(s: string) | VBool(b: bool) | VNull | VOther(json: string)

  /** The Go type of a struct field, as far as decoding cares: a string, an
      integer type with its range, a bool, a float, a pointer to another
      field type, or an interface that takes any value. */
  datatype FieldType = FString | FInt(lo: int, hi: int) | FBool | FFloat | FPtr(elem: FieldType) | FAny

  /** A struct type: its name and its fields by JSON key. */
  datatype Schema = Schema(name: string, fields: map<string, FieldType>)

  /** A struct value: the fields that hold something other than their zero
      value's initial state. A missing key is a field never assigned. */
  type Fields = map<string, Val>

  /** `url.Values`: every key with its list of values. */
  type Multimap = map<string, seq<string>>

  /** What a parameter's type is, for the built-in cases of the binder. */
  datatype Shape =
    | FileShape                  // multipart.File
    | RequestValue               // http.Request
    | RequestPointer             // *http.Request
    | StructShape(schema: Schema)

  /** A declared handler parameter. `makesFromRequest` is true when a pointer
      to the type implements `MakeFromRequest` (auth_interface.go). */
  datatype Param = Param(typeName: string, shape: Shape, makesFromRequest: bool)

  /** The value bound to one parameter, tagged by how it was obtained. A
      request copy carries the body bytes still unread in it. */
  datatype Arg =
    | Constructed(v: Any)
    | FileArg(file: Any)
    | RequestCopy(unread: seq<byte>)
    | RequestRef(unread: seq<byte>)
    | Decoded(fields: Fields)

  /** The parts of an inbound request the binder reads. `body` is what
      reading the whole body yields; `contentType` is the Content-Type header. */
  datatype Request = Request(
    verb: string,
    contentLength: int,
    contentType: string,
    body: seq<byte>,
    query: Multimap)

  /** Answers of the code the binder calls but the model does not contain.
      Functions that read the request body are given the bytes still unread. */
  datatype Foreign = Foreign(
    /** `MakeFromRequest` of the named type */
    makeFromRequest: (string, seq<byte>) -> Step<Any>,
    /** `r.FormFile("file")` */
    formFile: seq<byte> -> Step<Any>,
    /** `r.ParseForm()` followed by reading `r.Form` */
    parseForm: seq<byte> -> Step<Multimap>,
    /** the members of the JSON object at the head of the body, the
        decoder's error, or a panic of a user `UnmarshalJSON` */
    decodeJson: seq<byte> -> Step<map<string, Val>>,
    /** the text encoding/json reports when a value does not fit a field */
    mismatch: (Schema, map<string, Val>) -> string,
    /** `validator.Struct`: nil, an error, or a panic */
    validate: (Schema, Fields) -> Step<()>)

  /** One value of a query or form key: text that `strconv.Atoi` accepts
      becomes an integer, anything else stays a string. */
  function Coerce(s: string): (v: Val)
    ensures v.VInt? <==> StrConv.Atoi(s).Some?
    ensures v.VInt? ==> v.i == StrConv.Atoi(s).value
    ensures !v.VInt? ==> v == VStr(s)
  {
    match StrConv.Atoi(s)
    case Some(n) => VInt(n)
    case None => VStr(s)
  }

  /** Decimal text of a 64-bit integer is coerced back to that integer. */
  lemma CoerceDecimal(n: int)
    requires StrConv.Int64Min <= n <= StrConv.Int64Max
    ensures Coerce(StrConv.Itoa(n)) == VInt(n)
  {
    StrConv.AtoiItoa(n);
  }

  /** The single-valued view of a multimap: keys with exactly one value,
      each coerced. */
  function Flattened(mm: Multimap): map<string, Val> {
    map k | k in mm && |mm[k]| == 1 :: Coerce(mm[k][0])
  }

  /** The flattening loop of beautyrest.go, key by key. */
  method Flatten(mm: Multimap) returns (flat: map<string, Val>)
    ensures forall k :: k in flat <==> k in mm && |mm[k]| == 1
    ensures forall k :: k in flat ==> flat[k] == Coerce(mm[k][0])
    ensures flat == Flattened(mm)
  {
    flat := map[];
    var keys := mm.Keys;
    while keys != {}
      invariant keys <= mm.Keys
      invariant forall k :: k in flat <==> k in mm && k !in keys && |mm[k]| == 1
      invariant forall k :: k in flat ==> flat[k] == Coerce(mm[k][0])
      decreases keys
    {
      var key :| key in keys;
      var valueStrings := mm[key];
      if |valueStrings| == 1 {
        var valueString := valueStrings[0];
        var parsed := StrConv.Atoi(valueString);
        if parsed.Some? {
          flat := flat[key := VInt(parsed.value)];
        } else {
          flat := flat[key := VStr(valueString)];
        }
      }
      keys := keys - {key};
    }
  }

  /** encoding/json accepts the value for a field of this type. JSON null is
      accepted everywhere; a float takes any number; a pointer takes what
      its element type takes. */
  predicate Fits(t: FieldType, v: Val) {
    match t
    case FString => v.VStr? || v.VNull?
    case FInt(lo, hi) => (v.VInt? && lo <= v.i <= hi) || v.VNull?
    case FBool => v.VBool? || v.VNull?
    case FFloat => v.VInt? || v.VFrac? || v.VNull?
    case FPtr(elem) => v.VNull? || Fits(elem, v)
    case FAny => true
  }

  /** JSON null changes a field of this type (to a nil pointer or a nil
      interface); for the other types it is a no-op. */
  predicate NullAssigns(t: FieldType) {
    t.FPtr? || t.FAny?
  }

  /** Some member names a field of the struct and does not fit it. */
  predicate HasMismatch(schema: Schema, obj: map<string, Val>) {
    exists k :: k in obj && k in schema.fields && !Fits(schema.fields[k], obj[k])
  }

  /** The members that assign a field: known keys, except that null leaves a
      field of a value type as it was. */
  function Assigned(schema: Schema, obj: map<string, Val>): map<string, Val> {
    map k | k in obj && k in schema.fields && (obj[k] != VNull || NullAssigns(schema.fields[k])) :: obj[k]
  }

  /** `json.Unmarshal` of an object onto an existing struct value. */
  function Overlay(schema: Schema, current: Fields, obj: map<string, Val>, mismatch: (Schema, map<string, Val>) -> string): (r: Result<Fields>)
    ensures r.Err? <==> HasMismatch(schema, obj)
    ensures r.Err? ==> r.message == mismatch(schema, obj)
    ensures r.Ok? ==> forall k :: k in obj && k in schema.fields && obj[k] != VNull ==> k in r.value && r.value[k] == obj[k]
    ensures r.Ok? ==> forall k :: k in obj && k in schema.fields && obj[k] == VNull ==>
      if NullAssigns(schema.fields[k]) then k in r.value && r.value[k] == VNull
      else (k in r.value <==> k in current) && (k in current ==> r.value[k] == current[k])
    ensures r.Ok? ==> forall k :: k in current && (k !in obj || k !in schema.fields) ==> k in r.value && r.value[k] == current[k]
    ensures r.Ok? ==> forall k :: k in r.value ==> k in current || (k in obj && k in schema.fields)
  {
    if HasMismatch(schema, obj) then Err(mismatch(schema, obj))
    else Ok(current + Assigned(schema, obj))
  }

  /** The body is a multipart form: it is decoded through `ParseForm`. */
  predicate Multipart(req: Request) {
    req.contentLength > 0 && HasPrefix(req.contentType, "multipart")
  }

  /** The body is anything else with content: it is decoded as JSON. */
  predicate JsonBody(req: Request) {
    req.contentLength > 0 && !HasPrefix(req.contentType, "multipart")
  }

  /** An overlay's outcome as a step of the binder. */
  function Lift(r: Result<Fields>): Step<Fields> {
    match r
    case Ok(v) => Done(v)
    case Err(e) => Failed(e)
  }

  /** The struct after the body step: decoded only when ContentLength is
      positive; multipart requests go through the flattened form, which is
      skipped when empty; every other body goes through the JSON decoder. */
  function BodyFields(schema: Schema, unread: seq<byte>, req: Request, f: Foreign): (r: Step<Fields>)
    ensures req.contentLength <= 0 ==> r == Done(map[])
    ensures Multipart(req) && f.parseForm(unread).Failed? ==> r == Failed(f.parseForm(unread).message)
    ensures Multipart(req) && f.parseForm(unread).Panicked? ==> r == Panicked
    ensures Multipart(req) && f.parseForm(unread) == Done(map[]) ==> r == Done(map[])
    ensures Multipart(req) && f.parseForm(unread).Done? && |f.parseForm(unread).value| > 0 ==>
      var flat := Flattened(f.parseForm(unread).value);
      (r.Done? <==> !HasMismatch(schema, flat)) &&
      (!r.Done? ==> r == Failed(f.mismatch(schema, flat))) &&
      (r.Done? ==> forall k :: k in r.value <==> k in flat && k in schema.fields) &&
      (r.Done? ==> forall k :: k in r.value ==> r.value[k] == flat[k])
    ensures JsonBody(req) && f.decodeJson(unread).Failed? ==> r == Failed(f.decodeJson(unread).message)
    ensures JsonBody(req) && f.decodeJson(unread).Panicked? ==> r == Panicked
    ensures JsonBody(req) && f.decodeJson(unread).Done? ==>
      var obj := f.decodeJson(unread).value;
      (r.Done? <==> !HasMismatch(schema, obj)) &&
      (!r.Done? ==> r == Failed(f.mismatch(schema, obj))) &&
      (r.Done? ==> forall k :: k in r.value <==> k in obj && k in schema.fields && (obj[k] != VNull || NullAssigns(schema.fields[k]))) &&
      (r.Done? ==> forall k :: k in r.value ==> r.value[k] == obj[k])
    ensures r.Done? ==> forall k :: k in r.value ==> k in schema.fields
  {
    if req.contentLength <= 0 then Done(map[])
    else if HasPrefix(req.contentType, "multipart") then
      match f.parseForm(unread)
      case Failed(e) => Failed(e)
      case Panicked => Panicked
      case Done(form) =>
        if |form| > 0 then Lift(Overlay(schema, map[], Flattened(form), f.mismatch)) else Done(map[])
    else
      match f.decodeJson(unread)
      case Failed(e) => Failed(e)
      case Panicked => Panicked
      case Done(obj) => Lift(Overlay(schema, map[], obj, f.mismatch))
  }

  /** Reference for the merged struct: it holds only fields of the struct; a
      field the query names with exactly one value holds that value coerced,
      and every other field holds exactly what the body step left. */
  predicate MergeOf(schema: Schema, body: Fields, query: Multimap, m: Fields) {
    (forall k :: k in m ==> k in schema.fields) &&
    (forall k :: k in schema.fields && k in query && |query[k]| == 1 ==> k in m && m[k] == Coerce(query[k][0])) &&
    (forall k :: k in schema.fields && !(k in query && |query[k]| == 1) ==>
      (k in m <==> k in body) && (k in m ==> m[k] == body[k]))
  }

  /** The merge reference admits one struct at most. */
  lemma MergeOfUnique(schema: Schema, body: Fields, query: Multimap, m1: Fields, m2: Fields)
    requires MergeOf(schema, body, query, m1) && MergeOf(schema, body, query, m2)
    ensures m1 == m2
  {
    assert m1.Keys == m2.Keys;
    assert forall k :: k in m1 ==> m1[k] == m2[k];
  }

  /** The struct after the query overlay, which always follows the body step. */
  function MergedFields(schema: Schema, unread: seq<byte>, req: Request, f: Foreign): (r: Step<Fields>)
    ensures !BodyFields(schema, unread, req, f).Done? ==> r == BodyFields(schema, unread, req, f)
    ensures BodyFields(schema, unread, req, f).Done? ==>
      (r.Done? <==> !HasMismatch(schema, Flattened(req.query))) &&
      (!r.Done? ==> r == Failed(f.mismatch(schema, Flattened(req.query))))
    ensures r.Done? ==>
      BodyFields(schema, unread, req, f).Done? &&
      MergeOf(schema, BodyFields(schema, unread, req, f).value, req.query, r.value)
  {
    match BodyFields(schema, unread, req, f)
    case Failed(e) => Failed(e)
    case Panicked => Panicked
    case Done(fields) =>
      if |req.query| > 0 then Lift(Overlay(schema, fields, Flattened(req.query), f.mismatch)) else Done(fields)
  }

  /** The decode path: body, then query, then validation of the merged value. */
  function DecodeStruct(schema: Schema, unread: seq<byte>, req: Request, f: Foreign): (r: Step<Arg>)
    ensures r.Done? ==> r.value.Decoded?
    ensures r.Done? <==> MergedFields(schema, unread, req, f).Done? && f.validate(schema, MergedFields(schema, unread, req, f).value).Done?
    ensures r.Done? ==> f.validate(schema, r.value.fields).Done?
  {
    match MergedFields(schema, unread, req, f)
    case Failed(e) => Failed(e)
    case Panicked => Panicked
    case Done(fields) =>
      match f.validate(schema, fields)
      case Done(_) => Done(Decoded(fields))
      case Failed(e) => Failed(e)
      case Panicked => Panicked
  }

  /** Resolves one parameter against the bytes still unread in the body, and
      gives back what is left unread afterwards: a step that may read the
      body leaves nothing. */
  function Resolve(p: Param, unread: seq<byte>, req: Request, f: Foreign): (r: (Step<Arg>, seq<byte>))
    ensures r.1 == [] || r.1 == unread
    ensures r.0.Done? && p.makesFromRequest ==> r.0.value.Constructed?
    ensures r.0.Done? && !p.makesFromRequest ==> ArgMatches(p.shape, r.0.value)
    ensures r.1 == unread <==>
      unread == [] ||
      (!p.makesFromRequest && (p.shape.RequestValue? || p.shape.RequestPointer? ||
        (p.shape.StructShape? && req.contentLength <= 0)))
    ensures p.makesFromRequest ==>
      var made := f.makeFromRequest(p.typeName, unread);
      (made.Done? ==> r.0 == Done(Constructed(made.value))) &&
      (made.Failed? ==> r.0 == Failed(made.message)) &&
      (made.Panicked? ==> r.0.Panicked?)
    ensures !p.makesFromRequest && p.shape.FileShape? ==>
      var file := f.formFile(unread);
      (file.Done? ==> r.0 == Done(FileArg(file.value))) &&
      (file.Failed? ==> r.0 == Failed("Could not get file: " + file.message)) &&
      (file.Panicked? ==> r.0.Panicked?)
    ensures !p.makesFromRequest && (p.shape.RequestValue? || p.shape.RequestPointer?) ==>
      r.0.Done? && r.0.value.unread == unread
    ensures !p.makesFromRequest && p.shape.StructShape? ==>
      r.0 == DecodeStruct(p.shape.schema, unread, req, f)
  {
    if p.makesFromRequest then
      match f.makeFromRequest(p.typeName, unread)
      case Done(v) => (Done(Constructed(v)), [])
      case Failed(e) => (Failed(e), [])
      case Panicked => (Panicked, [])
    else
      match p.shape
      case FileShape =>
        (match f.formFile(unread)
         case Done(file) => Done(FileArg(file))
         case Failed(e) => Failed("Could not get file: " + e)
         case Panicked => Panicked, [])
      case RequestValue => (Done(RequestCopy(unread)), unread)
      case RequestPointer => (Done(RequestRef(unread)), unread)
      case StructShape(schema) =>
        (DecodeStruct(schema, unread, req, f), if req.contentLength > 0 then [] else unread)
  }

  /** The bound value has the variant the parameter's shape calls for. */
  predicate ArgMatches(s: Shape, a: Arg) {
    match s
    case FileShape => a.FileArg?
    case RequestValue => a.RequestCopy?
    case RequestPointer => a.RequestRef?
    case StructShape(_) => a.Decoded?
  }

  /** The bound value is of the kind the parameter asks for: a constructed
      value for a capability type, otherwise the variant of its shape. */
  predicate Suits(p: Param, a: Arg) {
    if p.makesFromRequest then a.Constructed? else ArgMatches(p.shape, a)
  }

  /** The binding loop. Before each parameter the body is restored to its
      original bytes when there are any; `unread` is what is left of the
      body otherwise. */
  function BindFrom(ps: seq<Param>, unread: seq<byte>, req: Request, f: Foreign): (r: Step<seq<Arg>>)
    ensures r.Done? ==> |r.value| == |ps| && forall i :: 0 <= i < |ps| ==> Suits(ps[i], r.value[i])
    ensures !r.Done? ==> |ps| > 0
    decreases |ps|
  {
    if |ps| == 0 then Done([])
    else
      var view := if |req.body| > 0 then req.body else unread;
      var (first, left) := Resolve(ps[0], view, req, f);
      match first
      case Failed(e) => Failed(e)
      case Panicked => Panicked
      case Done(a) =>
        match BindFrom(ps[1..], left, req, f)
        case Done(rest) => Done([a] + rest)
        case Failed(e) => Failed(e)
        case Panicked => Panicked
  }

  /** `getValidatedInputParams`: reading the whole body first leaves the
      stream empty. Because the body is restored before every parameter,
      the outcome is that of resolving each parameter against the whole
      body. */
  function Bind(ps: seq<Param>, req: Request, f: Foreign): (r: Step<seq<Arg>>)
    ensures r == BindEach(ps, req, f)
    ensures r.Done? ==> |r.value| == |ps| && forall i :: 0 <= i < |ps| ==> Suits(ps[i], r.value[i])
  {
    BindFromSeesFullBody(ps, [], req, f);
    BindFrom(ps, [], req, f)
  }

  /** How one parameter resolves on its own against the complete body. */
  function Alone(p: Param, req: Request, f: Foreign): Step<Arg> {
    Resolve(p, req.body, req, f).0
  }

  /** Reference binding: every parameter resolved against the complete body,
      stopping at the first one that does not produce a value. */
  function BindEach(ps: seq<Param>, req: Request, f: Foreign): Step<seq<Arg>> {
    if |ps| == 0 then Done([])
    else
      match Alone(ps[0], req, f)
      case Failed(e) => Failed(e)
      case Panicked => Panicked
      case Done(a) =>
        match BindEach(ps[1..], req, f)
        case Done(rest) => Done([a] + rest)
        case Failed(e) => Failed(e)
        case Panicked => Panicked
  }

  /** Restoring the body makes every parameter see all of it: the binding
      loop agrees with resolving each parameter against the full body. */
  lemma {:induction false} BindFromSeesFullBody(ps: seq<Param>, unread: seq<byte>, req: Request, f: Foreign)
    requires unread == [] || unread == req.body
    ensures BindFrom(ps, unread, req, f) == BindEach(ps, req, f)
    decreases |ps|
  {
    if |ps| > 0 {
      var view := if |req.body| > 0 then req.body else unread;
      assert view == req.body;
      var (first, left) := Resolve(ps[0], view, req, f);
      if first.Done? {
        BindFromSeesFullBody(ps[1..], left, req, f);
      }
    }
  }

  /** Binding yields one value per parameter, in declaration order, each the
      parameter's own resolution; it fails exactly when some parameter fails
      or panics, and then with the first such parameter's outcome. */
  lemma {:induction false} BindEachCharacterized(ps: seq<Param>, req: Request, f: Foreign)
    ensures BindEach(ps, req, f).Done? <==> forall i :: 0 <= i < |ps| ==> Alone(ps[i], req, f).Done?
    ensures BindEach(ps, req, f).Done? ==>
      |BindEach(ps, req, f).value| == |ps| &&
      forall i :: 0 <= i < |ps| ==> Alone(ps[i], req, f) == Done(BindEach(ps, req, f).value[i])
    ensures !BindEach(ps, req, f).Done? ==>
      exists i :: 0 <= i < |ps| && (forall j :: 0 <= j < i ==> Alone(ps[j], req, f).Done?) &&
        Alone(ps[i], req, f) == (if BindEach(ps, req, f).Failed? then Failed(BindEach(ps, req, f).message) else Panicked)
  {
    if |ps| > 0 {
      BindEachCharacterized(ps[1..], req, f);
      var r := BindEach(ps, req, f);
      var first := Alone(ps[0], req, f);
      var rest := BindEach(ps[1..], req, f);
      if first.Done? {
        if rest.Done? {
          forall i | 0 <= i < |ps|
            ensures Alone(ps[i], req, f) == Done(r.value[i])
          {
            if i > 0 {
              assert ps[i] == ps[1..][i - 1];
            }
          }
        } else {
          var i :| 0 <= i < |ps[1..]| && (forall j :: 0 <= j < i ==> Alone(ps[1..][j], req, f).Done?) &&
            Alone(ps[1..][i], req, f) == (if rest.Failed? then Failed(rest.message) else Panicked);
          assert forall j :: 0 <= j < i + 1 ==> Alone(ps[j], req, f).Done? by {
            forall j | 0 <= j < i + 1
              ensures Alone(ps[j], req, f).Done?
            {
              if j > 0 {
                assert ps[j] == ps[1..][j - 1];
              }
            }
          }
          assert ps[i + 1] == ps[1..][i];
        }
      } else {
        assert Alone(ps[0], req, f) == (if r.Failed? then Failed(r.message) else Panicked);
      }
    }
  }

  /** A capability parameter is resolved by `MakeFromRequest` alone: its
      shape, the request's other parts and the decoding answers play no
      part, and no validation runs. */
  lemma CapabilityAlone(p: Param, q: Param, unread: seq<byte>, req: Request, req': Request, f: Foreign, g: Foreign)
    requires p.makesFromRequest && q.makesFromRequest && p.typeName == q.typeName
    requires f.makeFromRequest(p.typeName, unread) == g.makeFromRequest(q.typeName, unread)
    ensures Resolve(p, unread, req, f) == Resolve(q, unread, req', g)
    ensures Resolve(p, unread, req, f).0 ==
      match f.makeFromRequest(p.typeName, unread)
      case Done(v) => Done(Constructed(v))
      case Failed(e) => Failed(e)
      case Panicked => Panicked
  {
  }

  /** An upload that cannot be found is reported with its cause. */
  lemma MissingFile(p: Param, unread: seq<byte>, req: Request, f: Foreign)
    requires !p.makesFromRequest && p.shape == FileShape
    requires f.formFile(unread).Failed?
    ensures Resolve(p, unread, req, f).0 == Failed("Could not get file: " + f.formFile(unread).message)
  {
  }

  /** A key set by both body and query ends with the query's value. */
  lemma QueryOverridesBody(schema: Schema, unread: seq<byte>, req: Request, f: Foreign, k: string)
    ensures DecodeStruct(schema, unread, req, f).Done? && k in Flattened(req.query) && k in schema.fields ==>
      var fields := DecodeStruct(schema, unread, req, f).value.fields;
      k in fields && fields[k] == Coerce(req.query[k][0])
  {
    if DecodeStruct(schema, unread, req, f).Done? && k in Flattened(req.query) && k in schema.fields {
      var flat := Flattened(req.query);
      assert |req.query| > 0 by {
        assert k in req.query;
      }
      assert flat[k] != VNull;
    }
  }

  /** A field the query does not set keeps what the body gave it. */
  lemma BodyValueKept(schema: Schema, unread: seq<byte>, req: Request, f: Foreign, k: string)
    ensures var body := BodyFields(schema, unread, req, f);
      DecodeStruct(schema, unread, req, f).Done? && body.Done? && k in body.value && k !in Flattened(req.query) ==>
        var fields := DecodeStruct(schema, unread, req, f).value.fields;
        k in fields && fields[k] == body.value[k]
  {
  }

  /** What the validator receives is the merge of body and query and nothing
      else: whenever the body step succeeds and the query fits, the
      parameter's outcome is the validator's answer on the reference merge. */
  lemma ValidatorSeesMerged(schema: Schema, unread: seq<byte>, req: Request, f: Foreign, m: Fields)
    ensures var body := BodyFields(schema, unread, req, f);
      body.Done? && !HasMismatch(schema, Flattened(req.query)) && MergeOf(schema, body.value, req.query, m) ==>
        DecodeStruct(schema, unread, req, f) ==
          match f.validate(schema, m)
          case Done(_) => Done(Decoded(m))
          case Failed(e) => Failed(e)
          case Panicked => Panicked
  {
    var body := BodyFields(schema, unread, req, f);
    if body.Done? && !HasMismatch(schema, Flattened(req.query)) && MergeOf(schema, body.value, req.query, m) {
      var merged := MergedFields(schema, unread, req, f);
      MergeOfUnique(schema, body.value, req.query, m, merged.value);
    }
  }

  /** A string field cannot be set from the query with text Atoi accepts:
      the text becomes an integer first, and decoding then fails. */
  lemma NumericTextRejectedByStringField(schema: Schema, unread: seq<byte>, req: Request, f: Foreign, k: string)
    requires BodyFields(schema, unread, req, f).Done?
    requires k in schema.fields && schema.fields[k] == FString
    requires k in req.query && |req.query[k]| == 1 && StrConv.Atoi(req.query[k][0]).Some?
    ensures DecodeStruct(schema, unread, req, f) == Failed(f.mismatch(schema, Flattened(req.query)))
  {
    assert k in Flattened(req.query);
    assert HasMismatch(schema, Flattened(req.query));
  }

  /** The query only ever yields integers and strings, so it cannot set a
      bool field at all, nor a float field to a number with a fraction: the
      query overlay fails. */
  lemma QueryCannotSetBoolOrFraction(schema: Schema, unread: seq<byte>, req: Request, f: Foreign, k: string)
    requires BodyFields(schema, unread, req, f).Done?
    requires k in schema.fields && k in req.query && |req.query[k]| == 1
    requires schema.fields[k] == FBool || (schema.fields[k] == FFloat && StrConv.Atoi(req.query[k][0]).None?)
    ensures DecodeStruct(schema, unread, req, f) == Failed(f.mismatch(schema, Flattened(req.query)))
  {
    assert k in Flattened(req.query);
    assert HasMismatch(schema, Flattened(req.query));
  }

  /** A form member with one value that names a field sets it, coerced. */
  lemma FormValueDecoded(schema: Schema, unread: seq<byte>, req: Request, f: Foreign, k: string)
    ensures var form := f.parseForm(unread);
      var body := BodyFields(schema, unread, req, f);
      (Multipart(req) && form.Done? && body.Done? && k in schema.fields && k in form.value && |form.value[k]| == 1) ==>
        k in body.value && body.value[k] == Coerce(form.value[k][0])
  {
    if Multipart(req) && f.parseForm(unread).Done? && BodyFields(schema, unread, req, f).Done? &&
      k in schema.fields && k in f.parseForm(unread).value && |f.parseForm(unread).value[k]| == 1 {
      assert k in Flattened(f.parseForm(unread).value);
    }
  }
}

=== FILE: dispatch.dfy ===
/** Request dispatch (`WrapEndpointHandlers` and `callHandler` in
    beautyrest.go): choose the handler for the verb, bind its parameters,
    call it, read its results and turn them into a response; a panic at any
    point becomes a 500 response carrying the stack trace split into a map. */
module Dispatch {
  import opened Wrappers
  import opened StrConv
  import opened Strs
  import opened Binding

  /** What calling a handler's body does: it returns its result values (one
      per declared result), or it panics. */
  datatype Call = Returns(results: seq<Any>) | Panics

  /** A handler function: its declared parameters and its behaviour. */
  datatype Handler = Handler(params: seq<Param>, body: seq<Arg> -> Call)

  /** The handlers registered for one route; a missing verb is None. */
  datatype EndpointHandlers = EndpointHandlers(
    get: Option<Handler>,
    post: Option<Handler>,
    put: Option<Handler>,
    delete: Option<Handler>)

  /** What the wrapper writes as the response body. `HandedOff` means the
      payload is itself a ResponseWriter and the wrapper encodes nothing. */
  datatype Body = NoBody | Text(text: string) | PanicMap(entries: map<string, string>) | HandedOff

  /** The observable outcome of one request: status, body, and whether
      parameter binding and the handler's body were reached. */
  datatype Response = Response(status: int, body: Body, bindingRan: bool, handlerRan: bool)

  const StatusOK: int := 200
  const StatusBadRequest: int := 400
  const StatusInternalServerError: int := 500
  const StatusNotImplemented: int := 501

  /** The outcome of the verb switch. */
  datatype Selection = Preflight | Unsupported | Selected(handler: Handler)

  /** The handler registered for a verb, if there is one. */
  function Registered(verb: string, hs: EndpointHandlers): Option<Handler> {
    if verb == "GET" then hs.get
    else if verb == "POST" then hs.post
    else if verb == "PUT" then hs.put
    else if verb == "DELETE" then hs.delete
    else None
  }

  /** The verb switch: OPTIONS is answered at once, a verb without a
      registered handler (or any other verb) is unsupported. */
  function SelectHandler(verb: string, hs: EndpointHandlers): (s: Selection)
    ensures s.Preflight? <==> verb == "OPTIONS"
    ensures s.Selected? <==> verb in {"GET", "POST", "PUT", "DELETE"} && Registered(verb, hs).Some?
    ensures s.Selected? ==> Registered(verb, hs) == Some(s.handler)
    ensures verb == "GET" && hs.get.Some? ==> s == Selected(hs.get.value)
    ensures verb == "POST" && hs.post.Some? ==> s == Selected(hs.post.value)
    ensures verb == "PUT" && hs.put.Some? ==> s == Selected(hs.put.value)
    ensures verb == "DELETE" && hs.delete.Some? ==> s == Selected(hs.delete.value)
  {
    if verb == "OPTIONS" then Preflight
    else
      match Registered(verb, hs)
      case None => Unsupported
      case Some(h) => Selected(h)
  }

  /** The keys of a panic map: "error" and the decimal indices below `n`. */
  ghost predicate PanicKeys(keys: set<string>, n: nat) {
    forall k :: k in keys ==> k == "error" || exists i :: 0 <= i < n && k == Itoa(i)
  }

  lemma FreshIndexKey(n: nat, keys: set<string>)
    requires PanicKeys(keys, n)
    ensures Itoa(n) !in keys
  {
    assert IsDigit(Itoa(n)[0]) && !IsDigit("error"[0]);
    forall i | 0 <= i < n
      ensures Itoa(i) != Itoa(n)
    {
      ItoaInjective(i, n);
    }
  }

  /** The deferred recovery's map: "error" set to "Server Panic", then one
      entry per stack segment keyed by its index in decimal. */
  function PanicEntries(splits: seq<string>): (m: map<string, string>)
    ensures |m| == |splits| + 1
    ensures "error" in m && m["error"] == "Server Panic"
    ensures forall i :: 0 <= i < |splits| ==> Itoa(i) in m && m[Itoa(i)] == splits[i]
    ensures PanicKeys(m.Keys, |splits|)
    decreases |splits|
  {
    if |splits| == 0 then map["error" := "Server Panic"]
    else
      var n := |splits| - 1;
      var m := PanicEntries(splits[..n]);
      FreshIndexKey(n, m.Keys);
      assert Itoa(n) != "error" by {
        assert !IsDigit("error"[0]);
      }
      m[Itoa(n) := splits[n]]
  }

  /** The body of a panic response for a stack trace: the trace split at
      every comma. The map has one entry per comma of the stack plus two:
      the "error" entry and the last segment; no segment holds a comma. */
  function PanicBody(stack: string): (m: map<string, string>)
    ensures |m| == Count(stack, ',') + 2
    ensures "error" in m && m["error"] == "Server Panic"
    ensures forall i :: 0 <= i <= Count(stack, ',') ==> Itoa(i) in m && ',' !in m[Itoa(i)]
    ensures |Split(stack, ',')| == Count(stack, ',') + 1 &&
      forall i :: 0 <= i <= Count(stack, ',') ==> m[Itoa(i)] == Split(stack, ',')[i]
  {
    var splits := Split(stack, ',');
    SplitCount(stack, ',');
    SplitPiecesFree(stack, ',');
    PanicEntries(splits)
  }

  /** The segments of a panic map, read back in index order. */
  function Segments(m: map<string, string>, n: nat): seq<string> {
    seq(n, i => if Itoa(i) in m then m[Itoa(i)] else "")
  }

  /** No text is lost in the panic map: its indexed entries, joined back
      with commas in index order, give the whole stack. */
  lemma PanicBodyShape(stack: string)
    ensures Join(Segments(PanicBody(stack), Count(stack, ',') + 1), ",") == stack
  {
    var splits := Split(stack, ',');
    var m := PanicBody(stack);
    var n := Count(stack, ',') + 1;
    SplitCount(stack, ',');
    forall i | 0 <= i < n
      ensures Segments(m, n)[i] == splits[i]
    {
    }
    assert Segments(m, n) == splits;
    SplitJoin(stack, ',');
  }

  /** The response the deferred recovery writes. */
  function PanicResponse(stack: string, handlerRan: bool): Response {
    Response(StatusInternalServerError, PanicMap(PanicBody(stack)), true, handlerRan)
  }

  /** reflect.Call panics when an argument is a nil interface (a zero
      reflect.Value) or a value whose type differs from the parameter's;
      only `MakeFromRequest` can produce either. */
  predicate CallPanics(ps: seq<Param>, args: seq<Arg>) {
    exists i :: 0 <= i < |ps| && i < |args| && ps[i].makesFromRequest && args[i].Constructed? &&
      (args[i].v.Nil? || args[i].v.typeName != ps[i].typeName)
  }

  /** `callHandler`'s reading of the result slots. */
  datatype Reading = Reading(data: Any, err: Option<string>)

  /** The payload is the first slot and the error the last; a last slot that
      is nil or not an error means no error. No slots at all makes the
      indexing panic, modelled as None. */
  function ReadResults(results: seq<Any>): (r: Option<Reading>)
    ensures r.None? <==> |results| == 0
    ensures r.Some? ==> r.value.data == results[0]
    ensures r.Some? && results[|results| - 1].Nil? ==> r.value.err.None?
    ensures r.Some? && r.value.err.Some? ==> results[|results| - 1].Obj? && results[|results| - 1].errorText == r.value.err
    ensures r.Some? && results[|results| - 1].Obj? && results[|results| - 1].errorText.Some? ==>
      r.value.err == results[|results| - 1].errorText
  {
    if |results| == 0 then None
    else
      var last := results[|results| - 1];
      var err := if last.Obj? && last.errorText.Some? then last.errorText else None;
      Some(Reading(results[0], err))
  }

  /** The response for a handler's results once it returned. */
  function Deliver(reading: Reading): (resp: Response)
    ensures resp.status == StatusInternalServerError <==> reading.err.Some?
    ensures reading.err.Some? ==> resp.body == Text(reading.err.value + "\n")
    ensures reading.err.None? ==> resp.status == StatusOK
    ensures resp.body == HandedOff <==> reading.err.None? && reading.data.Obj? && reading.data.writer
    ensures resp.body == NoBody <==> reading.err.None? && reading.data.Nil?
    ensures reading.err.None? && reading.data.Obj? && !reading.data.writer ==> resp.body == Text(reading.data.json + "\n")
    ensures resp.bindingRan && resp.handlerRan
  {
    if reading.err.Some? then
      Response(StatusInternalServerError, Text(reading.err.value + "\n"), true, true)
    else if reading.data.Obj? && reading.data.writer then
      Response(StatusOK, HandedOff, true, true)
    else if reading.data.Nil? then
      Response(StatusOK, NoBody, true, true)
    else
      Response(StatusOK, Text(reading.data.json + "\n"), true, true)
  }

  /** One request through the wrapper returned by `WrapEndpointHandlers`.
      `stack` stands for the text `debug.Stack()` would return. */
  function Serve(hs: EndpointHandlers, req: Request, f: Foreign, stack: string): (resp: Response)
    ensures req.verb == "OPTIONS" ==> resp == Response(StatusOK, NoBody, false, false)
    ensures req.verb != "OPTIONS" && Registered(req.verb, hs).None? ==>
      resp == Response(StatusNotImplemented, Text("unsupported rest verb\n"), false, false)
    ensures resp.bindingRan <==> SelectHandler(req.verb, hs).Selected?
    ensures resp.status == StatusBadRequest <==>
      SelectHandler(req.verb, hs).Selected? && Bind(SelectHandler(req.verb, hs).handler.params, req, f).Failed?
    ensures resp.status == StatusBadRequest ==>
      !resp.handlerRan && resp.body == Text(Bind(SelectHandler(req.verb, hs).handler.params, req, f).message + "\n")
    ensures resp.handlerRan ==>
      SelectHandler(req.verb, hs).Selected? && Bind(SelectHandler(req.verb, hs).handler.params, req, f).Done?
    ensures resp.body.PanicMap? ==> resp.status == StatusInternalServerError && resp.body.entries == PanicBody(stack)
    ensures resp.status in {StatusOK, StatusBadRequest, StatusInternalServerError, StatusNotImplemented}
  {
    match SelectHandler(req.verb, hs)
    case Preflight => Response(StatusOK, NoBody, false, false)
    case Unsupported => Response(StatusNotImplemented, Text("unsupported rest verb\n"), false, false)
    case Selected(h) =>
      match Bind(h.params, req, f)
      case Panicked => PanicResponse(stack, false)
      case Failed(e) => Response(StatusBadRequest, Text(e + "\n"), true, false)
      case Done(args) =>
        if CallPanics(h.params, args) then PanicResponse(stack, false)
        else
          match h.body(args)
          case Panics => PanicResponse(stack, true)
          case Returns(results) =>
            match ReadResults(results)
            case None => PanicResponse(stack, true)
            case Some(reading) => Deliver(reading)
  }

  /** Binding stops at the first parameter that cannot be bound: the response
      is 400 with that parameter's error text and the handler never runs. */
  lemma BindingFailureIsClientError(hs: EndpointHandlers, req: Request, f: Foreign, stack: string, h: Handler, i: nat)
    requires SelectHandler(req.verb, hs) == Selected(h)
    requires i < |h.params| && Alone(h.params[i], req, f).Failed?
    requires forall j :: 0 <= j < i ==> Alone(h.params[j], req, f).Done?
    ensures Serve(hs, req, f, stack) ==
      Response(StatusBadRequest, Text(Alone(h.params[i], req, f).message + "\n"), true, false)
  {
    BindEachCharacterized(h.params, req, f);
    var b := BindEach(h.params, req, f);
    assert !b.Done?;
    var k :| 0 <= k < |h.params| && (forall j :: 0 <= j < k ==> Alone(h.params[j], req, f).Done?) &&
      Alone(h.params[k], req, f) == (if b.Failed? then Failed(b.message) else Panicked);
    assert !Alone(h.params[k], req, f).Done?;
    assert k >= i;
    assert k <= i;
    assert Bind(h.params, req, f) == Failed(Alone(h.params[i], req, f).message);
  }

  /** A struct parameter whose decoding fails (the body, the query overlay
      or the validator reports an error) answers 400 with that error. */
  lemma DecodeFailureIsClientError(hs: EndpointHandlers, req: Request, f: Foreign, stack: string, h: Handler, i: nat)
    requires SelectHandler(req.verb, hs) == Selected(h)
    requires i < |h.params| && !h.params[i].makesFromRequest && h.params[i].shape.StructShape?
    requires DecodeStruct(h.params[i].shape.schema, req.body, req, f).Failed?
    requires forall j :: 0 <= j < i ==> Alone(h.params[j], req, f).Done?
    ensures Serve(hs, req, f, stack) == Response(StatusBadRequest,
      Text(DecodeStruct(h.params[i].shape.schema, req.body, req, f).message + "\n"), true, false)
  {
    BindingFailureIsClientError(hs, req, f, stack, h, i);
  }

  /** A query value the struct cannot take, after a body that decoded,
      answers 400 with the decoder's mismatch message. */
  lemma QueryMismatchIsClientError(hs: EndpointHandlers, req: Request, f: Foreign, stack: string, h: Handler, i: nat)
    requires SelectHandler(req.verb, hs) == Selected(h)
    requires i < |h.params| && !h.params[i].makesFromRequest && h.params[i].shape.StructShape?
    requires BodyFields(h.params[i].shape.schema, req.body, req, f).Done?
    requires HasMismatch(h.params[i].shape.schema, Flattened(req.query))
    requires forall j :: 0 <= j < i ==> Alone(h.params[j], req, f).Done?
    ensures Serve(hs, req, f, stack) == Response(StatusBadRequest,
      Text(f.mismatch(h.params[i].shape.schema, Flattened(req.query)) + "\n"), true, false)
  {
    var schema := h.params[i].shape.schema;
    assert MergedFields(schema, req.body, req, f) == Failed(f.mismatch(schema, Flattened(req.query)));
    DecodeFailureIsClientError(hs, req, f, stack, h, i);
  }

  /** When the validator rejects the merged struct (the body's fields with
      the query's single values on top), the response is 400 with the
      validator's error and the handler does not run. */
  lemma ValidatorRejectionIsClientError(hs: EndpointHandlers, req: Request, f: Foreign, stack: string,
                                        h: Handler, i: nat, m: Fields, e: string)
    requires SelectHandler(req.verb, hs) == Selected(h)
    requires i < |h.params| && !h.params[i].makesFromRequest && h.params[i].shape.StructShape?
    requires var schema := h.params[i].shape.schema;
      var body := BodyFields(schema, req.body, req, f);
      body.Done? && !HasMismatch(schema, Flattened(req.query)) &&
      MergeOf(schema, body.value, req.query, m) && f.validate(schema, m) == Failed(e)
    requires forall j :: 0 <= j < i ==> Alone(h.params[j], req, f).Done?
    ensures Serve(hs, req, f, stack) == Response(StatusBadRequest, Text(e + "\n"), true, false)
  {
    ValidatorSeesMerged(h.params[i].shape.schema, req.body, req, f, m);
    DecodeFailureIsClientError(hs, req, f, stack, h, i);
  }

  /** When the handler runs it receives one argument per declared parameter,
      each being that parameter's resolution against the full body. */
  lemma HandlerGetsBoundArguments(hs: EndpointHandlers, req: Request, f: Foreign, h: Handler)
    requires SelectHandler(req.verb, hs) == Selected(h)
    requires forall i :: 0 <= i < |h.params| ==> Alone(h.params[i], req, f).Done?
    ensures Bind(h.params, req, f).Done?
    ensures |Bind(h.params, req, f).value| == |h.params|
    ensures forall i :: 0 <= i < |h.params| ==> Bind(h.params, req, f).value[i] == Alone(h.params[i], req, f).value
  {
    BindEachCharacterized(h.params, req, f);
  }

  /** Any panic the model represents (in a `MakeFromRequest`, `FormFile`,
      `ParseForm`, the JSON decoder, the validator, the argument check of
      reflect.Call, the handler, or the result indexing) and only a panic
      gives the 500 response with the stack map. */
  lemma PanicContained(hs: EndpointHandlers, req: Request, f: Foreign, stack: string, h: Handler)
    requires SelectHandler(req.verb, hs) == Selected(h)
    ensures var b := Bind(h.params, req, f);
      Serve(hs, req, f, stack).body.PanicMap? <==>
        b.Panicked? ||
        (b.Done? && (CallPanics(h.params, b.value) ||
                     h.body(b.value).Panics? ||
                     (h.body(b.value).Returns? && |h.body(b.value).results| == 0)))
  {
  }

  /** A handler error is reported as 500 with its text, whatever the payload. */
  lemma HandlerErrorIsServerError(hs: EndpointHandlers, req: Request, f: Foreign, stack: string, h: Handler, results: seq<Any>)
    requires SelectHandler(req.verb, hs) == Selected(h)
    requires Bind(h.params, req, f).Done? && !CallPanics(h.params, Bind(h.params, req, f).value)
    requires h.body(Bind(h.params, req, f).value) == Returns(results)
    requires 0 < |results| && results[|results| - 1].Obj? && results[|results| - 1].errorText.Some?
    ensures Serve(hs, req, f, stack) ==
      Response(StatusInternalServerError, Text(results[|results| - 1].errorText.value + "\n"), true, true)
  {
  }

  /** Once the handler has returned at least one result, the response is
      exactly what `callHandler`'s reading of those results delivers. */
  lemma HandlerReturned(hs: EndpointHandlers, req: Request, f: Foreign, stack: string, h: Handler, results: seq<Any>)
    requires SelectHandler(req.verb, hs) == Selected(h)
    requires Bind(h.params, req, f).Done? && !CallPanics(h.params, Bind(h.params, req, f).value)
    requires h.body(Bind(h.params, req, f).value) == Returns(results)
    requires 0 < |results|
    ensures ReadResults(results).Some?
    ensures Serve(hs, req, f, stack) == Deliver(ReadResults(results).value)
  {
  }

  /** When the last slot holds no error (it is nil, or a value that is not an
      error) the payload decides: a ResponseWriter is left to itself, nil
      writes nothing, anything else is JSON-encoded. */
  lemma PayloadEncoding(hs: EndpointHandlers, req: Request, f: Foreign, stack: string, h: Handler, results: seq<Any>)
    requires SelectHandler(req.verb, hs) == Selected(h)
    requires Bind(h.params, req, f).Done? && !CallPanics(h.params, Bind(h.params, req, f).value)
    requires h.body(Bind(h.params, req, f).value) == Returns(results)
    requires 0 < |results| && !(results[|results| - 1].Obj? && results[|results| - 1].errorText.Some?)
    ensures var resp := Serve(hs, req, f, stack);
      resp.status == StatusOK && resp.handlerRan &&
      resp.body == (if results[0].Nil? then NoBody
                    else if results[0].writer then HandedOff
                    else Text(results[0].json + "\n"))
  {
  }

  /** A handler with a single result slot reads it both as payload and as
      error: an error value there is reported as a 500. */
  lemma SingleSlotError(e: string, t: string, j: string)
    ensures ReadResults([Obj(t, j, Some(e), false)]) == Some(Reading(Obj(t, j, Some(e), false), Some(e)))
    ensures Deliver(ReadResults([Obj(t, j, Some(e), false)]).value).status == StatusInternalServerError
  {
  }
}

=== FILE: strconv.dfy ===
/** Go's `strconv.Atoi` and `strconv.Itoa` on a 64-bit platform, written out
    as pure functions over decimal text. */
module StrConv {
  import opened Wrappers

  /** Range of Go's `int` on a 64-bit platform. */
  const Int64Min: int := -0x8000_0000_0000_0000
  const Int64Max: int := 0x7fff_ffff_ffff_ffff

  predicate IsDigit(c: char) {
    '0' <= c <= '9'
  }

  predicate AllDigits(s: string) {
    forall i :: 0 <= i < |s| ==> IsDigit(s[i])
  }

  function DigitValue(c: char): nat
    requires IsDigit(c)
  {
    c as int - '0' as int
  }

  function DigitChar(d: nat): (c: char)
    requires d < 10
    ensures IsDigit(c) && DigitValue(c) == d
  {
    ('0' as int + d) as char
  }

  function Pow10(n: nat): nat {
    if n == 0 then 1 else 10 * Pow10(n - 1)
  }

  /** The value of a run of decimal digits, most significant digit first;
      leading zeros are allowed. */
  function DigitsValue(s: string): nat
    requires AllDigits(s)
  {
    if |s| == 0 then 0 else DigitsValue(s[..|s| - 1]) * 10 + DigitValue(s[|s| - 1])
  }

  /** The shortest decimal spelling of `n` ("0" for zero). */
  function NatDigits(n: nat): (r: string)
    ensures 0 < |r| && AllDigits(r)
    ensures |r| > 1 ==> r[0] != '0'
  {
    if n < 10 then [DigitChar(n)] else NatDigits(n / 10) + [DigitChar(n % 10)]
  }

  /** `strconv.Itoa`: a minus sign for negative values, then the digits. */
  function Itoa(n: int): (r: string)
    ensures 0 < |r|
    ensures n >= 0 <==> AllDigits(r)
  {
    if n < 0 then
      var r := "-" + NatDigits(-n);
      assert !IsDigit(r[0]);
      r
    else NatDigits(n)
  }

  /** The sign-stripped part of an Atoi input. */
  function Unsigned(s: string): string {
    if 0 < |s| && (s[0] == '+' || s[0] == '-') then s[1..] else s
  }

  /** `strconv.Atoi`: an optional `+` or `-`, then one or more ASCII digits
      (no underscores, no spaces), whose value must lie in the 64-bit range;
      anything else is an error, modelled as None. */
  function Atoi(s: string): (r: Option<int>)
    ensures r.Some? ==> Int64Min <= r.value <= Int64Max
    ensures r.Some? ==> 0 < |s| && (IsDigit(s[0]) || s[0] == '+' || s[0] == '-')
    ensures r.Some? ==> forall i :: 0 < i < |s| ==> IsDigit(s[i])
    ensures r.Some? && r.value < 0 ==> s[0] == '-'
    ensures r.Some? ==> 0 < |Unsigned(s)| && AllDigits(Unsigned(s))
  {
    var digits := Unsigned(s);
    if |digits| == 0 || !AllDigits(digits) then None
    else
      assert IsDigit(s[|s| - 1]);
      var magnitude: int := DigitsValue(digits);
      var v := if s[0] == '-' then -magnitude else magnitude;
      if Int64Min <= v <= Int64Max then Some(v) else None
  }

  lemma {:induction false} DigitsValueBound(s: string)
    requires AllDigits(s)
    ensures DigitsValue(s) < Pow10(|s|)
  {
    if |s| > 0 {
      DigitsValueBound(s[..|s| - 1]);
    }
  }

  lemma {:induction false} NatDigitsValue(n: nat)
    ensures DigitsValue(NatDigits(n)) == n
  {
    if n >= 10 {
      NatDigitsValue(n / 10);
      var r := NatDigits(n);
      assert r[..|r| - 1] == NatDigits(n / 10);
    }
  }

  /** Atoi reads back every value Itoa writes in the 64-bit range. */
  lemma AtoiItoa(n: int)
    requires Int64Min <= n <= Int64Max
    ensures Atoi(Itoa(n)) == Some(n)
  {
    var s := Itoa(n);
    if n < 0 {
      NatDigitsValue(-n);
      assert s[0] == '-';
      assert Unsigned(s) == NatDigits(-n);
    } else {
      NatDigitsValue(n);
      assert Unsigned(s) == NatDigits(n);
    }
  }

  /** Every optionally signed run of digits is read as its signed decimal
      value exactly when that value lies in the 64-bit range, and rejected
      otherwise. */
  lemma AtoiSigned(sign: string, d: string)
    requires sign == "" || sign == "+" || sign == "-"
    requires 0 < |d| && AllDigits(d)
    ensures var v: int := if sign == "-" then -(DigitsValue(d) as int) else DigitsValue(d);
      Atoi(sign + d) == if Int64Min <= v <= Int64Max then Some(v) else None
  {
    assert Unsigned(sign + d) == d;
  }

  /** A sign with no digits after it, and the empty text, are rejected. */
  lemma AtoiNeedsDigits(s: string)
    requires s == "" || s == "+" || s == "-"
    ensures Atoi(s) == None
  {
    assert Unsigned(s) == "";
  }

  /** Distinct indices have distinct decimal spellings. */
  lemma ItoaInjective(a: nat, b: nat)
    requires a != b
    ensures Itoa(a) != Itoa(b)
  {
    NatDigitsValue(a);
    NatDigitsValue(b);
  }

  /** Every unsigned run of 1 to 18 digits is accepted, leading zeros
      included, with its decimal value. */
  lemma AtoiShortDigits(s: string)
    requires 0 < |s| <= 18 && AllDigits(s)
    ensures Atoi(s) == Some(DigitsValue(s))
  {
    DigitsValueBound(s);
    Pow10Mono(|s|, 18);
    Pow10Add(6, 6);
    Pow10Add(12, 6);
    assert Pow10(6) == 1_000_000;
    assert Unsigned(s) == s;
  }

  lemma {:induction false} Pow10Add(a: nat, b: nat)
    ensures Pow10(a + b) == Pow10(a) * Pow10(b)
  {
    if a > 0 {
      Pow10Add(a - 1, b);
    }
  }

  lemma {:induction false} Pow10Mono(a: nat, b: nat)
    requires a <= b
    ensures Pow10(a) <= Pow10(b)
  {
    if a < b {
      Pow10Mono(a, b - 1);
    }
  }
}

=== FILE: strs.dfy ===
/** The handful of Go `strings` operations the model needs, on `seq<char>`. */
module Strs {

  /** `strings.Count` for a one-character separator. */
  function Count(s: string, c: char): nat {
    if |s| == 0 then 0 else (if s[0] == c then 1 else 0) + Count(s[1..], c)
  }

  /** `strings.Index` for a character known to occur. */
  function IndexOf(s: string, c: char): (i: nat)
    requires c in s
    ensures i < |s| && s[i] == c && c !in s[..i]
  {
    if s[0] == c then 0 else 1 + IndexOf(s[1..], c)
  }

  /** `strings.Split(s, string(sep))`: the pieces between separators, so an
      empty string splits into one empty piece. */
  function Split(s: string, sep: char): (pieces: seq<string>)
    decreases |s|
  {
    if sep !in s then [s]
    else
      var i := IndexOf(s, sep);
      [s[..i]] + Split(s[i + 1..], sep)
  }

  /** `strings.Join`. */
  function Join(parts: seq<string>, sep: string): string {
    if |parts| == 0 then ""
    else if |parts| == 1 then parts[0]
    else parts[0] + sep + Join(parts[1..], sep)
  }

  /** Concatenation of a sequence of strings. */
  function Concat(parts: seq<string>): string {
    if |parts| == 0 then "" else parts[0] + Concat(parts[1..])
  }

  /** `strings.HasPrefix`. */
  predicate HasPrefix(s: string, prefix: string) {
    |prefix| <= |s| && s[..|prefix|] == prefix
  }

  lemma PrefixAppend(s: string, prefix: string, tail: string)
    requires HasPrefix(s, prefix)
    ensures HasPrefix(s + tail, prefix)
  {
    assert (s + tail)[..|prefix|] == s[..|prefix|];
  }

  lemma PrefixCons(a: string, s: string, prefix: string)
    requires HasPrefix(s, prefix)
    ensures HasPrefix(a + s, a + prefix)
  {
    assert (a + s)[..|a + prefix|] == a + s[..|prefix|];
  }

  lemma PrefixShorten(s: string, prefix: string, more: string)
    requires HasPrefix(s, prefix + more)
    ensures HasPrefix(s, prefix)
  {
    assert s[..|prefix|] == s[..|prefix + more|][..|prefix|];
  }

  /** `strings.Replace(s, string(from), string(to), -1)` for single characters. */
  function ReplaceAll(s: string, from: char, to: char): (r: string)
    ensures |r| == |s|
    ensures forall i :: 0 <= i < |s| ==> r[i] == (if s[i] == from then to else s[i])
  {
    if |s| == 0 then "" else [if s[0] == from then to else s[0]] + ReplaceAll(s[1..], from, to)
  }

  lemma {:induction false} CountAppend(a: string, b: string, c: char)
    ensures Count(a + b, c) == Count(a, c) + Count(b, c)
  {
    if |a| > 0 {
      assert (a + b)[1..] == a[1..] + b;
      CountAppend(a[1..], b, c);
    } else {
      assert a + b == b;
    }
  }

  lemma {:induction false} CountAbsent(s: string, c: char)
    requires c !in s
    ensures Count(s, c) == 0
  {
    if |s| > 0 {
      CountAbsent(s[1..], c);
    }
  }

  /** Splitting yields one more piece than there are separators. */
  lemma {:induction false} SplitCount(s: string, sep: char)
    ensures |Split(s, sep)| == Count(s, sep) + 1
    decreases |s|
  {
    if sep !in s {
      CountAbsent(s, sep);
    } else {
      var i := IndexOf(s, sep);
      assert s == s[..i] + [sep] + s[i + 1..];
      CountAbsent(s[..i], sep);
      CountAppend(s[..i] + [sep], s[i + 1..], sep);
      CountAppend(s[..i], [sep], sep);
      SplitCount(s[i + 1..], sep);
    }
  }

  /** No piece contains the separator. */
  lemma {:induction false} SplitPiecesFree(s: string, sep: char)
    ensures forall k :: 0 <= k < |Split(s, sep)| ==> sep !in Split(s, sep)[k]
    decreases |s|
  {
    if sep in s {
      var i := IndexOf(s, sep);
      SplitPiecesFree(s[i + 1..], sep);
    }
  }

  /** Joining the pieces with the separator gives back the input. */
  lemma {:induction false} SplitJoin(s: string, sep: char)
    ensures Join(Split(s, sep), [sep]) == s
    decreases |s|
  {
    if sep in s {
      var i := IndexOf(s, sep);
      var head, tail := s[..i], s[i + 1..];
      var rest := Split(tail, sep);
      SplitJoin(tail, sep);
      SplitCount(tail, sep);
      assert Split(s, sep) == [head] + rest;
      JoinCons(head, rest, [sep]);
      assert Join(Split(s, sep), [sep]) == head + [sep] + tail;
      SplitAt(s, i);
    }
  }

  /** A text is its part before position i, the character there, and its
      part after. */
  lemma SplitAt(s: string, i: nat)
    requires i < |s|
    ensures s == s[..i] + [s[i]] + s[i + 1..]
  {
    assert s == s[..i] + s[i..];
    assert s[i..] == [s[i]] + s[i + 1..];
  }

  lemma JoinCons(first: string, rest: seq<string>, sep: string)
    requires |rest| > 0
    ensures Join([first] + rest, sep) == first + sep + Join(rest, sep)
  {
    assert ([first] + rest)[1..] == rest;
  }
}

=== FILE: wrappers.dfy ===
/** Small failure-carrying datatypes shared by the rest of the model. */
module Wrappers {

  /** A value that may be absent (Go's nil / "not ok"). */
  datatype Option<+T> = None | Some(value: T)

  /** Go's `(T, error)` pair: either a value or the text of a non-nil error. */
  datatype Result<+T> = Ok(value: T) | Err(message: string)

  /** A call into code the model cannot see: it returns a value, returns an
      error, or panics. */
  datatype Step<+T> = Done(value: T) | Failed(message: string) | Panicked
}
